=== FILE: README.md ===
# Tenant–landlord platform: a Dafny model of its pages

The platform is a browser-only React application. Tenants register, sign in and file
maintenance requests through a four-step form. They track rent on a ledger with a month
calendar, chat with the landlord and read notifications. Landlords see every request,
change request statuses and filter the list. The application has no server: every page
reads and writes whole JSON documents in the browser's `localStorage`.

This project models that storage and the logic of each page as pure Dafny functions over
immutable data:

- `Wrappers`, `Seqs`, `Text`: option type, filter/count/subsequence over sequences, and the
  JavaScript string operations the pages use (`trim`, `includes`, `toLowerCase`, `String(n)`,
  `padStart`).
- `Entities`: one datatype per stored record (user, session, request, payment, message,
  notification).
- `EntityStore`: storage as a map from key to parsed document, with the keys the pages use
  and loaders that return `None` for a missing or wrongly shaped document.
- `Register`, `Login`, `Profile`: accounts and the `loggedInUser` session.
- `MaintenanceForm`, `TenantDashboard`, `LandlordDashboard`: the request lifecycle.
- `PaymentTracker`, `Calendar`, `Palette`: the rent ledger, its yearly total and the month grid.
- `Messages`, `ChatBox`: the chat, including its delayed status updates.
- `Notifications`: the bell dropdown.

Handlers take the current store (and, where the page keeps one, the on-screen state) and
return the new store together with what the page shows. The clock (`Date.now()`, today's
date, the date one month ahead) is a parameter. A delayed callback is a `Timer` value
holding what it captured, and so is a pending image read of the maintenance form; an
interleaving is then a sequence of calls.

Where the page's behaviour is surprising, the model keeps it and a lemma states it. The
hard-coded rent and year, the payment keys that never meet, the missing landlord gate and
the message timers that overwrite later messages and the image read that restores a stale
maintenance form are all modelled this way.

## Model

| member | source | states |
|---|---|---|
| EntityStore.Put | src/pages/PaymentTracker.jsx:118-119 | `setItem` replaces one key's document and leaves every other key as it was |
| EntityStore.LoadUsers | src/pages/Register.jsx:74 | the users list is found exactly when the key holds a users document, and it is that document |
| Register.EmailPatternMatches | src/pages/Register.jsx:26 | the email test holds exactly when some `@` has a non-space before it and a later `.` with non-spaces between and after |
| Register.StripPhone | src/pages/Register.jsx:31 | removing `-`, `(`, `)` and spaces keeps every other character, in order and as many times as it occurs, and removes all of those |
| Register.FieldError | src/pages/Register.jsx:20-47 | each field fails exactly when the source's check for it fails: blank name/address, blank or unshaped email, blank phone or not ten digits, short password, differing confirmation |
| Register.Collect | src/pages/Register.jsx:17-50 | a field is in the collected errors exactly when it was checked and failed, with that field's message |
| Register.ValidateForm | src/pages/Register.jsx:17-50 | each field appears in the error map exactly when its own check fails, so several errors are reported together |
| Register.NoErrorsIffValid | src/pages/Register.jsx:66-70 | the error map is empty exactly when the whole form is valid |
| Register.ClearOnChange | src/pages/Register.jsx:53-61 | typing in a field blanks its message and keeps the key; other messages are untouched |
| Register.HandleSubmit | src/pages/Register.jsx:63-107 | invalid form: errors, nothing stored; duplicate email: that one error, nothing stored; otherwise exactly one user is appended with the form's name, email, phone, password, role and address, the clock value as id, an empty avatar and email-only notifications |
| Register.UniqueAfterAppend | src/pages/Register.jsx:75-99 | appending a user whose email nobody has keeps emails unique |
| Register.RegisterKeepsEmailsUnique | src/pages/Register.jsx:63-107 | if stored emails are unique before a registration, they are unique after it |
| Login.FindUser | src/pages/Login.jsx:23-25 | finds the first user whose email and password both match, and finds none exactly when no user matches |
| Login.SessionOf | src/pages/Login.jsx:33-42 | the session copies id, email, role, name, phone, address and preferences, drops the password and turns a missing avatar into "" |
| Login.RouteFor | src/pages/Login.jsx:50-54 | only role "landlord" goes to the landlord dashboard; every other role goes to the tenant one |
| Login.HandleLogin | src/pages/Login.jsx:10-55 | empty fields are refused before storage is read; the only errors are those two messages; a sign-in happens exactly when some user matches, and no match gives the invalid-credentials error and no write; a match writes the session of the first matching user, as `find` does, and routes by that user's role; only the session key changes |
| Login.FindAppended | src/pages/Login.jsx:23-25 | after appending a user with a fresh email, that user is the one found |
| Login.RegisterThenLogin | src/pages/Login.jsx:10-55 | right after a successful registration, signing in with the same email and password succeeds, stores that email's session and routes by the registered role |
| Profile.InitialProfile | src/pages/Profile.jsx:35-48 | the form copies the session's text fields; missing notification flags default to email on and SMS off |
| Profile.Overlay | src/pages/Profile.jsx:90-93 | the saved session takes every form field and keeps id, role and communication preferences |
| Profile.SaveProfile | src/pages/Profile.jsx:88-100 | saving rewrites only the session key, with the overlaid record |
| Profile.SaveThenReload | src/pages/Profile.jsx:35-48 | reopening the page after a save shows exactly the saved form |
| Profile.SaveLeavesAccounts | src/pages/Profile.jsx:88-100 | saving never changes the users list, so edits are not seen by the next sign-in |
| Profile.Logout | src/pages/Profile.jsx:54-57 | signing out removes the session, after which the page is not viewable |
| Profile.HandlePasswordUpdate | src/pages/Profile.jsx:102-121 | a mismatch is reported before a short password; on success the form is cleared; the three outcomes split all inputs |
| Profile.CurrentPasswordIgnored | src/pages/Profile.jsx:102-121 | the outcome does not depend on the current password |
| MaintenanceForm.ValidateStep | src/pages/MaintenanceForm.jsx:92-113 | steps 1 and 2 need a category and an urgency; step 3 accepts exactly a non-blank description of 10 to 500 characters, with blank, too short and too long reported in that order |
| MaintenanceForm.HandleNext | src/pages/MaintenanceForm.jsx:115-119 | the step advances exactly when the current step validates; otherwise the error is shown |
| MaintenanceForm.HandleBack | src/pages/MaintenanceForm.jsx:121-124 | going back lowers the step by one, keeps the data and clears the error |
| MaintenanceForm.HandleDescriptionChange | src/pages/MaintenanceForm.jsx:136-142 | input longer than 500 characters is ignored; otherwise it becomes the description |
| MaintenanceForm.RemoveImage | src/pages/MaintenanceForm.jsx:196-199 | removes exactly the image at the index, and nothing for an index out of range |
| MaintenanceForm.MatchingIssues | src/pages/MaintenanceForm.jsx:71-81 | the suggestions are, in list order and with none missed, the common issues whose lowercased text contains the lowercased description |
| MaintenanceForm.ApplyKeepsInvariant | src/pages/MaintenanceForm.jsx:115-199 | every action, including an image read that finishes late and writes back the form data captured when the files were picked, keeps the step in 1..4, the description within 500 characters, the choices from the lists and every passed choice made; only such a read at the review step can bring back a description step 3 did not accept |
| MaintenanceForm.RunKeepsInvariant | src/pages/MaintenanceForm.jsx:115-199 | any sequence of actions keeps that invariant |
| MaintenanceForm.ReachableFormsAreValid | src/pages/MaintenanceForm.jsx:7-14 | every page reachable from the initial one satisfies the invariant |
| MaintenanceForm.RunStaysReviewReady | src/pages/MaintenanceForm.jsx:115-119 | unless an image read finishes at the review step, the review step only shows a description that step 3 accepted |
| MaintenanceForm.HandleSubmit | src/pages/MaintenanceForm.jsx:201-222 | an unacceptable description stores nothing and reports step 3's error; otherwise one pending request with the form's data, the clock value as id and today's date is appended to the stored list |
| MaintenanceForm.ReachableSubmit | src/pages/MaintenanceForm.jsx:201-222 | at a reachable review step, a submit that succeeds stores a listed category and urgency, and a submit fails only if an image read finished at the review step |
| MaintenanceForm.StaleUploadBlocksSubmit | src/pages/MaintenanceForm.jsx:173-193 | picking a photo before typing the description, then reaching review before the read finishes, leaves review with a blank description that submit rejects with "Description is required" |
| TenantDashboard.GateNeedsTenantSession | src/pages/TenantDashboard.jsx:24-26 | the page shows exactly for a stored session whose role is "tenant" |
| TenantDashboard.GateAfterLogin | src/pages/TenantDashboard.jsx:24-26 | after a successful sign-in the page opens exactly when the first matching user's role is "tenant" |
| TenantDashboard.GateAfterLogout | src/pages/TenantDashboard.jsx:24-26 | after logging out the page does not open |
| TenantDashboard.CountByStatus | src/pages/TenantDashboard.jsx:33-35 | the three counters add up to at most the number of requests, and to exactly that number when every status is one of the three |
| TenantDashboard.CountByStatusAppend | src/pages/TenantDashboard.jsx:33-35 | with no requests every counter is 0, and one more request raises exactly the counter named by its status (pending, in progress, completed) |
| TenantDashboard.StatusProgress | src/pages/TenantDashboard.jsx:42-49 | the bar is 33 percent exactly for Pending, 66 exactly for In Progress, 100 exactly for Completed and 0 exactly for any other status |
| TenantDashboard.ProgressFollowsLifecycle | src/pages/TenantDashboard.jsx:42-49 | progress strictly rises from unknown to Pending, In Progress and Completed |
| TenantDashboard.RecentRequests | src/pages/TenantDashboard.jsx:175 | the first three requests, or all of them when there are fewer |
| TenantDashboard.MoreRequests | src/pages/TenantDashboard.jsx:202-206 | the "+N more" line shows exactly when there are over three requests, and N plus the shown ones is the total |
| TenantDashboard.BadgeColour | src/pages/TenantDashboard.jsx:181-194 | yellow exactly for Pending, blue exactly for In Progress, green for everything else |
| TenantDashboard.UnknownStatusLooksCompleted | src/pages/TenantDashboard.jsx:181-196 | an unknown status gets the completed colour but an empty bar |
| LandlordDashboard.NoRoleGate | src/pages/LandlordDashboard.jsx:9-16 | what the page loads does not depend on the session at all |
| LandlordDashboard.UpdateStatus | src/pages/LandlordDashboard.jsx:18-21 | only the status of the requests with that id changes; length and every other field stay |
| LandlordDashboard.HandleStatusUpdate | src/pages/LandlordDashboard.jsx:18-24 | the updated list is shown and stored, and no other key changes |
| LandlordDashboard.AnyTransitionAllowed | src/pages/LandlordDashboard.jsx:18-24 | any status can be set on any request; no transition is refused |
| LandlordDashboard.UpdateStatusIdempotent | src/pages/LandlordDashboard.jsx:18-21 | applying the same update twice equals applying it once |
| LandlordDashboard.FilterRequests | src/pages/LandlordDashboard.jsx:31-35 | keeps, in order and with every repetition, exactly the requests passing both filters; "All"/"All" keeps the list unchanged |
| LandlordDashboard.FiltersCompose | src/pages/LandlordDashboard.jsx:31-35 | filtering on both is filtering by status and then by urgency |
| LandlordDashboard.PendingRequests | src/pages/LandlordDashboard.jsx:46 | the pending count is at most the number of requests, and 0 exactly when none is pending |
| LandlordDashboard.OverduePayments | src/pages/LandlordDashboard.jsx:47 | the overdue count is 0 exactly when no payment is overdue and the whole list exactly when all are |
| LandlordDashboard.OverdueAppend | src/pages/LandlordDashboard.jsx:47 | no payments give 0, and one more payment raises the count by one exactly when its status is "Overdue" |
| LandlordDashboard.PendingMatchesFilter | src/pages/LandlordDashboard.jsx:46 | the pending count equals the length of the Pending/All filtered list |
| LandlordDashboard.UpdateToPendingNeverLowersCount | src/pages/LandlordDashboard.jsx:18-21 | setting a status to Pending never lowers the pending count |
| LandlordDashboard.RecentPayments | src/pages/LandlordDashboard.jsx:49 | the first five payments, or all when fewer |
| LandlordDashboard.UrgencyColour | src/pages/LandlordDashboard.jsx:51-58 | High is red, Medium yellow, Low green and anything else gray |
| LandlordDashboard.StatusColour | src/pages/LandlordDashboard.jsx:60-67 | Completed is green, In Progress blue, Pending yellow and anything else gray |
| Calendar.GenerateCalendar | src/pages/PaymentTracker.jsx:142-171 | one to six weeks of seven cells; cell (w, d) shows day 7w+d−start+1 when that is within the month and is blank otherwise; the grid stops after the week holding the last day |
| Calendar.CalendarDaysInOrder | src/pages/PaymentTracker.jsx:154-169 | read row by row, the grid shows each day 1..daysInMonth exactly once, in order |
| Calendar.CalendarDayPosition | src/pages/PaymentTracker.jsx:154-169 | day n sits in week (start+n−1) div 7 at weekday (start+n−1) mod 7 |
| Calendar.CalendarLeadingBlanks | src/pages/PaymentTracker.jsx:160-161 | the first week begins with exactly `startingDayOfWeek` blank cells |
| Calendar.CalendarTrailingBlanks | src/pages/PaymentTracker.jsx:160-168 | every cell after the last day is blank, and the last week holds the last day |
| Calendar.DateKeyInjective | src/pages/PaymentTracker.jsx:182 | two days of one month never share a `YYYY-MM-DD` key |
| PaymentTracker.Initialize | src/pages/PaymentTracker.jsx:74-90 | with both keys stored, the page shows the stored history (`[]` if unreadable) and upcoming payment and writes nothing; with either missing, both keys are seeded with the demo ledger, which satisfies the ledger invariant |
| PaymentTracker.MarkAsPaid | src/pages/PaymentTracker.jsx:97-120 | the upcoming payment, otherwise unchanged (method included) but marked Paid and dated today, goes in front of the history; the next one has the next id, is pending, due a month from today, for 1500 and by bank transfer |
| PaymentTracker.MarkAsPaidKeepsRolling | src/pages/PaymentTracker.jsx:97-120 | a pending upcoming payment with an id above every settled history entry stays so after marking |
| PaymentTracker.MarkAsPaidTwice | src/pages/PaymentTracker.jsx:97-120 | marking twice adds two entries and advances the id by two: the action is not idempotent |
| PaymentTracker.MarkAsPaidInvisibleToLandlord | src/pages/PaymentTracker.jsx:118-119 | marking never changes the `payments` key the landlord dashboard reads |
| PaymentTracker.YearOf | src/pages/PaymentTracker.jsx:137 | a year is read exactly when the date starts with four digits, and it is the integer those digits spell |
| PaymentTracker.YearOfDateKey | src/pages/PaymentTracker.jsx:137 | the year of a `YYYY-MM-DD` key the calendar writes for a four-digit year is that year |
| PaymentTracker.TotalInsert | src/pages/PaymentTracker.jsx:135-140 | inserting a payment adds its amount to the total exactly when it is Paid and dated 2024 |
| PaymentTracker.TotalIsSumOfCounted | src/pages/PaymentTracker.jsx:135-140 | the total of nothing is 0, and an entry that does not count can be removed without changing the total |
| PaymentTracker.TotalAfterMarkAsPaid | src/pages/PaymentTracker.jsx:97-140 | after marking, the total grows by the settled amount exactly when today is in 2024 |
| PaymentTracker.StatusColour | src/pages/PaymentTracker.jsx:122-133 | Paid is green, Pending yellow, Overdue red and anything else gray |
| PaymentTracker.AllPaymentDatesAsWritten | src/pages/PaymentTracker.jsx:152 | the page's date list fails exactly when there is no upcoming payment |
| PaymentTracker.FirstRenderCrashes | src/pages/PaymentTracker.jsx:7 | on the first render, before loading, the page's date list fails |
| PaymentTracker.AllPaymentDates | src/pages/PaymentTracker.jsx:152 | every history date and the upcoming date, when there is one, and nothing else |
| PaymentTracker.AllPaymentDatesAgree | src/pages/PaymentTracker.jsx:152 | once an upcoming payment is loaded, the corrected list equals the page's |
| PaymentTracker.CellStyle | src/pages/PaymentTracker.jsx:321-330 | a cell is the due day exactly when it matches the upcoming date; it is a past payment exactly when it matches some other payment date; blank cells are plain |
| PaymentTracker.DueDayIsPaymentDay | src/pages/PaymentTracker.jsx:180-190 | the due day is also a payment date, and the due styling wins over the past-payment one |
| PaymentTracker.AtMostOneDueDay | src/pages/PaymentTracker.jsx:186-190 | at most one day of a month carries the due styling |
| Messages.Seed | src/pages/Messages.jsx:24-66 | six messages with ids 1 to 6 and the seed texts in order, alternating senders starting with the landlord, strictly increasing past timestamps, four read, then one delivered and one sent |
| Messages.Mount | src/pages/Messages.jsx:17-70 | nothing without a session; a stored conversation is shown as it is; otherwise the seed is stored and shown |
| Messages.MountTwice | src/pages/Messages.jsx:17-70 | a second mount shows what the first one stored; the seed is written at most once |
| Messages.SenderFor | src/pages/Messages.jsx:75 | the sender is the session role, or "tenant" when the role is empty |
| Messages.SetStatus | src/pages/Messages.jsx:81-83 | only messages with the id change, and only their status |
| Messages.Send | src/pages/Messages.jsx:72-96 | appends one sent message stamped with the clock, stores the new list and schedules delivered and read updates on that list |
| Messages.Fire | src/pages/Messages.jsx:80-95 | a timer writes its captured list, with the one status changed, to the screen and storage |
| Messages.SendThenTimers | src/pages/Messages.jsx:72-96 | with nothing in between, the new message ends read and the rest of the list is unchanged |
| Messages.FireIgnoresCurrent | src/pages/Messages.jsx:80-95 | what a timer stores does not depend on what is stored when it fires |
| Messages.LateTimerDropsLaterMessage | src/pages/Messages.jsx:72-96 | a timer of an earlier send firing after a later send removes the later message |
| Messages.StatusRegression | src/pages/Messages.jsx:72-96 | a message already read can go back to delivered when a later send's timer fires |
| ChatBox.HandleSubmit | src/components/ChatBox.jsx:15-21 | blank input does nothing; other input is sent untrimmed and the box is cleared |
| ChatBox.StatusIcon | src/components/ChatBox.jsx:45-56 | one grey tick when sent, two when delivered, two blue when read, none otherwise |
| ChatBox.TickShown | src/components/ChatBox.jsx:63-85 | ticks appear only on the viewer's own messages |
| ChatBox.FormatKind | src/components/ChatBox.jsx:23-43 | a message under a day old gets a time label, an older one a date label |
| ChatBox.FormatKindMonotonic | src/components/ChatBox.jsx:23-43 | once a message is old enough for a date label, every older message has one too |
| Notifications.Seed | src/components/Notification.jsx:14-43 | four notifications, ids 1 to 4, with the seed texts and the kinds maintenance, payment, message, maintenance, one day apart starting now, the first three unread |
| Notifications.Mount | src/components/Notification.jsx:9-47 | a stored list is shown as it is; otherwise the seed is stored and shown |
| Notifications.UnreadCount | src/components/Notification.jsx:60 | the badge is at most the list length and is 0 exactly when all are read |
| Notifications.SeedBadge | src/components/Notification.jsx:14-43 | the seeded list shows a badge of 3 |
| Notifications.MarkRead | src/components/Notification.jsx:62-66 | only notifications with the id change, and they become read |
| Notifications.MarkReadIdempotent | src/components/Notification.jsx:62-66 | marking the same id twice equals marking it once |
| Notifications.MarkReadCount | src/components/Notification.jsx:60-66 | the badge drops by the number of unread notifications carrying the id |
| Notifications.MarkReadBadge | src/components/Notification.jsx:60-66 | marking never raises the badge, and lowers it exactly when an unread notification had the id |
| Notifications.MarkAsRead | src/components/Notification.jsx:62-68 | the marked list is shown and stored; no other key changes |
| Notifications.ClearAll | src/components/Notification.jsx:70-73 | clearing empties the list and removes the stored key |
| Notifications.ClearedListReseeds | src/components/Notification.jsx:9-13 | after clearing, the next mount brings back the seeded notifications |
| Notifications.AgoOf | src/components/Notification.jsx:75-86 | minutes under an hour, hours under a day, else days, each the floor of the elapsed time in that unit |
| Notifications.FormatTime | src/components/Notification.jsx:75-86 | the label is the count, which reads back to that number, followed by "m ago", "h ago" or "d ago" |
| Notifications.NotificationIcon | src/components/Notification.jsx:88-95 | wrench, money bag and speech bubble for the three known kinds, the bell exactly for any other kind |

## Left out

- Malformed JSON: where a page calls `JSON.parse` on stored text that is not JSON, the page throws. The loaders here return `None` and the page uses its default. The profile, messages, payment tracker, maintenance form and tenant dashboard pages catch the error, for the session only, and treat it as signed out.
- An empty stored string: JavaScript treats `""` as absent when a page tests `if (stored)`. The store model has no raw text, so a stored document is always present.
- Text lengths: JavaScript measures strings in UTF-16 code units and Dafny in code points. The two differ only for characters outside the Basic Multilingual Plane.
- `toLowerCase`: the suggestion search lowercases ASCII letters only.
- Dates: the conversion of `Date` values to ISO text, time zones, and `toLocaleDateString`/`toLocaleTimeString` formatting are not modelled. Today's date, the date one month ahead and the clock are parameters; timestamps are milliseconds.
- PaymentTracker.YearOf: reads the first four digits of the text, assuming the `YYYY-MM-DD` text the page itself writes. It does not shift the date by the browser's time zone, as `new Date(...).getFullYear()` can do around New Year. It does not reject text that starts with four digits but is no valid date (`"2024-13-01"` gives `NaN` in the browser and is not counted; the model reads 2024), and it does not parse other formats (`"Oct 1, 2024"` gives 2024 in the browser; the model gives no year).
- Images: decoding files with `FileReader`, drag-and-drop and the image-type filter are not modelled. Images are data-URL strings. The asynchronous completion is modelled: a pending read holds the form data captured when the files were picked and can finish at any later point.
- MaintenanceForm.ReachableFormsAreValid: does not promise that the review step shows an accepted description, because a late image read writes back a stale description (see MaintenanceForm.StaleUploadBlocksSubmit).
- MaintenanceForm.ReachableSubmit: does not promise that every reachable review submits; that fails after a late image read, as MaintenanceForm.StaleUploadBlocksSubmit shows.
- Alerts, navigation, `setTimeout` used only to hide a banner, scrolling and the dropdown's click-outside handling are presentation, and are not modelled.
- Field setters that copy one input value into form state (`handleChange`, `handleInputChange`, `handlePasswordChange`, category/urgency selection) are modelled only as the `Apply` actions of the maintenance form and `ClearOnChange` of registration.
- NotificationIcon: the page indexes a plain object, so kinds such as "constructor" pick up prototype members. The model gives those kinds the bell.
- The landlord dashboard's `handleLogout` removes a `currentUser` key that nothing writes. The mock property list and the static tenant-dashboard messages are constant data.
- src/components/MaintenanceForm.jsx and src/pages/MaintenanceHistory.jsx are not part of this model. No route uses the former; the latter only lists stored requests.
- Record ids come from `Date.now()` and are not guaranteed unique. The model takes the clock value as given and does not assume it is fresh, except where a lemma states that as a precondition.
- Users' `createdAt` is a millisecond number here; the page stores ISO text.

## Findings

| source | as written | input that shows it | evidently intended | confidence | as-written member | corrected member |
|---|---|---|---|---|---|---|
| src/pages/PaymentTracker.jsx:152 | the first render builds `[...payments, upcomingPayment].map(p => p.date)` while `upcomingPayment` is still `null` (line 7); the mount effect has not run yet, so reading `.date` of `null` throws. The render throws before any effect is committed, so the mount effect (lines 74-90) never runs either: as written, the page's load and "mark as paid" are never reached by any tenant | the first render of the page by a signed-in tenant: history `[]`, upcoming `null` | list the history dates, plus the upcoming date once it is loaded | high, not executed | PaymentTracker.AllPaymentDatesAsWritten, PaymentTracker.FirstRenderCrashes | PaymentTracker.AllPaymentDates, PaymentTracker.AllPaymentDatesAgree |

=== FILE: calendar.dfy ===
/** The month grid of the payment tracker: weeks of seven weekday cells, Sunday first. */
module Calendar {
  import opened Text

  /** A grid cell: padding, or the day of the month it shows. */
  datatype Cell = Blank | Day(n: int)

  /** The calendar's inputs as `Date` produces them: the weekday of the 1st (0 = Sunday)
      and the number of days in the month. */
  predicate ValidMonth(startingDayOfWeek: int, daysInMonth: int) {
    0 <= startingDayOfWeek <= 6 && 28 <= daysInMonth <= 31
  }

  /** What row-major position `k` of the grid shows: the first `startingDayOfWeek`
      cells are padding, then days 1..daysInMonth, then padding. */
  function CellAt(startingDayOfWeek: int, daysInMonth: int, k: int): Cell {
    if startingDayOfWeek <= k < startingDayOfWeek + daysInMonth then Day(k - startingDayOfWeek + 1) else Blank
  }

  /** How many days have been written once the first `k` cells are filled. */
  function Placed(startingDayOfWeek: int, daysInMonth: int, k: int): int {
    if k <= startingDayOfWeek then 0
    else if k - startingDayOfWeek >= daysInMonth then daysInMonth
    else k - startingDayOfWeek
  }

  /** Every row has seven cells and cell (w, d) is the layout's position 7*w + d. */
  ghost predicate FollowsLayout(grid: seq<seq<Cell>>, startingDayOfWeek: int, daysInMonth: int) {
    && (forall w :: 0 <= w < |grid| ==> |grid[w]| == 7)
    && (forall w, d :: 0 <= w < |grid| && 0 <= d < 7 ==> grid[w][d] == CellAt(startingDayOfWeek, daysInMonth, 7 * w + d))
  }

  /** The grid of `generateCalendar`: at most six weeks, each filled left to right,
      stopping after the week that holds the last day of the month. */
  method GenerateCalendar(startingDayOfWeek: int, daysInMonth: int) returns (grid: seq<seq<Cell>>)
    requires ValidMonth(startingDayOfWeek, daysInMonth)
    ensures 1 <= |grid| <= 6
    ensures FollowsLayout(grid, startingDayOfWeek, daysInMonth)
    ensures 7 * (|grid| - 1) < startingDayOfWeek + daysInMonth <= 7 * |grid|
  {
    grid := [];
    var dayCounter := 1;
    var week := 0;
    var done := false;
    while week < 6 && !done
      invariant 0 <= week <= 6 && |grid| == week
      invariant FollowsLayout(grid, startingDayOfWeek, daysInMonth)
      invariant dayCounter == 1 + Placed(startingDayOfWeek, daysInMonth, 7 * week)
      invariant done <==> week > 0 && 7 * week >= startingDayOfWeek + daysInMonth
      invariant week > 0 ==> 7 * (week - 1) < startingDayOfWeek + daysInMonth
      decreases 6 - week
    {
      var weekDays: seq<Cell> := [];
      var day := 0;
      while day < 7
        invariant 0 <= day <= 7 && |weekDays| == day
        invariant forall d :: 0 <= d < day ==> weekDays[d] == CellAt(startingDayOfWeek, daysInMonth, 7 * week + d)
        invariant dayCounter == 1 + Placed(startingDayOfWeek, daysInMonth, 7 * week + day)
      {
        if (week == 0 && day < startingDayOfWeek) || dayCounter > daysInMonth {
          weekDays := weekDays + [Blank];
        } else {
          weekDays := weekDays + [Day(dayCounter)];
          dayCounter := dayCounter + 1;
        }
        day := day + 1;
      }
      grid := grid + [weekDays];
      week := week + 1;
      // `if (dayCounter > daysInMonth) break;`
      done := dayCounter > daysInMonth;
    }
  }

  /** The grid read row by row. */
  ghost function Flatten(grid: seq<seq<Cell>>): seq<Cell> {
    if grid == [] then [] else grid[0] + Flatten(grid[1..])
  }

  lemma {:induction false} FlattenIndex(grid: seq<seq<Cell>>)
    requires forall w :: 0 <= w < |grid| ==> |grid[w]| == 7
    ensures |Flatten(grid)| == 7 * |grid|
    ensures forall k :: 0 <= k < 7 * |grid| ==> Flatten(grid)[k] == grid[k / 7][k % 7]
  {
    if grid != [] {
      FlattenIndex(grid[1..]);
      forall k | 7 <= k < 7 * |grid|
        ensures Flatten(grid)[k] == grid[k / 7][k % 7]
      {
        assert Flatten(grid)[k] == Flatten(grid[1..])[k - 7];
        assert (k - 7) / 7 == k / 7 - 1 && (k - 7) % 7 == k % 7;
      }
    }
  }

  /** The day numbers of the non-blank cells, in order. */
  function DayNumbers(cells: seq<Cell>): seq<int> {
    if cells == [] then []
    else if cells[0].Day? then [cells[0].n] + DayNumbers(cells[1..])
    else DayNumbers(cells[1..])
  }

  lemma {:induction false} DayNumbersAppend(a: seq<Cell>, b: seq<Cell>)
    ensures DayNumbers(a + b) == DayNumbers(a) + DayNumbers(b)
  {
    if a != [] {
      assert (a + b)[1..] == a[1..] + b;
      DayNumbersAppend(a[1..], b);
    } else {
      assert a + b == b;
    }
  }

  /** The first `k` layout positions show exactly days 1..Placed(k), in order. */
  lemma {:induction false} LayoutPrefixDays(startingDayOfWeek: int, daysInMonth: int, cells: seq<Cell>, k: nat)
    requires ValidMonth(startingDayOfWeek, daysInMonth)
    requires k <= |cells|
    requires forall j :: 0 <= j < |cells| ==> cells[j] == CellAt(startingDayOfWeek, daysInMonth, j)
    ensures DayNumbers(cells[..k]) == seq(Placed(startingDayOfWeek, daysInMonth, k), i => i + 1)
  {
    if k > 0 {
      LayoutPrefixDays(startingDayOfWeek, daysInMonth, cells, k - 1);
      assert cells[..k] == cells[..k - 1] + [cells[k - 1]];
      DayNumbersAppend(cells[..k - 1], [cells[k - 1]]);
    }
  }

  /** The grid `GenerateCalendar` returns: 1..6 rows that end with the row holding the last day. */
  ghost predicate IsMonthGrid(grid: seq<seq<Cell>>, startingDayOfWeek: int, daysInMonth: int) {
    && ValidMonth(startingDayOfWeek, daysInMonth)
    && 1 <= |grid| && 7 * (|grid| - 1) < startingDayOfWeek + daysInMonth <= 7 * |grid|
    && FollowsLayout(grid, startingDayOfWeek, daysInMonth)
  }

  /** Read row-major, the non-blank cells are 1, 2, ..., daysInMonth: each day once, in increasing order. */
  lemma CalendarDaysInOrder(startingDayOfWeek: int, daysInMonth: int, grid: seq<seq<Cell>>)
    requires IsMonthGrid(grid, startingDayOfWeek, daysInMonth)
    ensures DayNumbers(Flatten(grid)) == seq(daysInMonth, i => i + 1)
  {
    FlattenIndex(grid);
    var cells := Flatten(grid);
    forall j | 0 <= j < |cells|
      ensures cells[j] == CellAt(startingDayOfWeek, daysInMonth, j)
    {
      assert 7 * (j / 7) + j % 7 == j;
    }
    LayoutPrefixDays(startingDayOfWeek, daysInMonth, cells, |cells|);
    assert cells[..|cells|] == cells;
  }

  /** Day `n` sits in week (start + n - 1) / 7 at weekday (start + n - 1) % 7. */
  lemma CalendarDayPosition(startingDayOfWeek: int, daysInMonth: int, grid: seq<seq<Cell>>, n: int)
    requires IsMonthGrid(grid, startingDayOfWeek, daysInMonth)
    requires 1 <= n <= daysInMonth
    ensures 0 <= (startingDayOfWeek + n - 1) / 7 < |grid|
    ensures grid[(startingDayOfWeek + n - 1) / 7][(startingDayOfWeek + n - 1) % 7] == Day(n)
  {
    var k := startingDayOfWeek + n - 1;
    assert 7 * (k / 7) + k % 7 == k;
  }

  /** The first week opens with exactly `startingDayOfWeek` blank cells. */
  lemma CalendarLeadingBlanks(startingDayOfWeek: int, daysInMonth: int, grid: seq<seq<Cell>>)
    requires IsMonthGrid(grid, startingDayOfWeek, daysInMonth)
    ensures forall d :: 0 <= d < 7 ==> (grid[0][d].Blank? <==> d < startingDayOfWeek)
  {
    assert forall d :: 0 <= d < 7 ==> grid[0][d] == CellAt(startingDayOfWeek, daysInMonth, d);
  }

  /** Every cell after the last day is blank, and the last week holds the last day. */
  lemma CalendarTrailingBlanks(startingDayOfWeek: int, daysInMonth: int, grid: seq<seq<Cell>>)
    requires IsMonthGrid(grid, startingDayOfWeek, daysInMonth)
    ensures forall w, d :: 0 <= w < |grid| && 0 <= d < 7 && 7 * w + d >= startingDayOfWeek + daysInMonth
                           ==> grid[w][d].Blank?
    ensures Day(daysInMonth) in grid[|grid| - 1]
  {
    var last := startingDayOfWeek + daysInMonth - 1;
    var d := last - 7 * (|grid| - 1);
    assert 0 <= d < 7;
    assert grid[|grid| - 1][d] == CellAt(startingDayOfWeek, daysInMonth, last);
  }

  /** The text before the day in a date key: `YYYY-MM-`. */
  function MonthPrefix(year: int, month0: nat): string {
    IntToString(year) + "-" + PadStart2(NatToString(month0 + 1)) + "-"
  }

  /** A calendar date as the page spells it: `YYYY-MM-DD` with month and day padded to two digits
      (`month0` counts from 0, as `getMonth()` does). */
  function DateKey(year: int, month0: nat, day: nat): string {
    MonthPrefix(year, month0) + PadStart2(NatToString(day))
  }

  lemma NatToStringShort(n: nat)
    requires n < 100
    ensures |NatToString(n)| <= 2
  {
  }

  /** Padding to two characters loses nothing for the digits of a number below 100. */
  lemma {:induction false} PadStart2Injective(a: nat, b: nat)
    requires a < 100 && b < 100
    requires PadStart2(NatToString(a)) == PadStart2(NatToString(b))
    ensures a == b
  {
    var s1, s2 := NatToString(a), NatToString(b);
    var p := PadStart2(s1);
    NatToStringShort(a);
    NatToStringShort(b);
    if |s1| == |s2| {
      assert s1 == p[|p| - |s1|..] == s2;
    }
    NatToStringRoundTrip(a);
    NatToStringRoundTrip(b);
  }

  /** Two different days of one month never share a date key, so a stored date marks at most one cell. */
  lemma DateKeyInjective(year: int, month0: nat, d1: nat, d2: nat)
    requires d1 < 100 && d2 < 100
    requires DateKey(year, month0, d1) == DateKey(year, month0, d2)
    ensures d1 == d2
  {
    var prefix := MonthPrefix(year, month0);
    assert PadStart2(NatToString(d1)) == DateKey(year, month0, d1)[|prefix|..];
    assert PadStart2(NatToString(d2)) == DateKey(year, month0, d2)[|prefix|..];
    PadStart2Injective(d1, d2);
  }
}

=== FILE: chatbox.dfy ===
/** The chat panel: the input box, which side a message is drawn on, the delivery tick
    and the choice between a time and a date label. */
module ChatBox {
  import opened Entities
  import opened Text

  /** `handleSubmit` of the input box. */
  datatype Submit = Submit(input: string, sent: seq<string>)

  /** A non-blank input is handed to the page untrimmed and the box is cleared; a blank
      one leaves everything as it was. */
  function HandleSubmit(input: string): (r: Submit)
    ensures IsBlank(input) <==> r == Submit(input, [])
    ensures !IsBlank(input) ==> r == Submit("", [input])
  {
    if !IsBlank(input) then Submit("", [input]) else Submit(input, [])
  }

  /** A message is drawn as one's own when its sender equals the viewer's role. */
  predicate IsOwn(m: Message, currentUser: string) {
    m.sender == currentUser
  }

  datatype Tick = NoTick | Grey(marks: nat) | Blue(marks: nat)

  /** `getStatusIcon`: one tick when sent, two when delivered, two blue when read. */
  function StatusIcon(status: string): (t: Tick)
    ensures t == Grey(1) <==> status == "sent"
    ensures t == Grey(2) <==> status == "delivered"
    ensures t == Blue(2) <==> status == "read"
    ensures t == NoTick <==> status !in {"sent", "delivered", "read"}
  {
    if status == "sent" then Grey(1)
    else if status == "delivered" then Grey(2)
    else if status == "read" then Blue(2)
    else NoTick
  }

  /** Ticks are drawn only on one's own messages. */
  function TickShown(m: Message, currentUser: string): (t: Tick)
    ensures !IsOwn(m, currentUser) ==> t == NoTick
    ensures IsOwn(m, currentUser) ==> t == StatusIcon(m.status)
  {
    if IsOwn(m, currentUser) then StatusIcon(m.status) else NoTick
  }

  datatype TimeLabel = TimeOfDay | DateAndTime

  const DayMillis := 86400000

  /** `formatTime`: a message under a day old shows only the time, an older one the date too
      (the difference is `(now - date) / 3600000 < 24` in the page, done here without division). */
  function FormatKind(now: int, timestamp: int): (k: TimeLabel)
    ensures k == TimeOfDay <==> now - timestamp < DayMillis
  {
    if now - timestamp < DayMillis then TimeOfDay else DateAndTime
  }

  /** Older messages never get the shorter label when a newer one has the longer one. */
  lemma FormatKindMonotonic(now: int, t1: int, t2: int)
    requires t1 <= t2
    ensures FormatKind(now, t2) == DateAndTime ==> FormatKind(now, t1) == DateAndTime
  {
  }
}

=== FILE: entities.dfy ===
/** The records the pages keep in browser storage, one datatype per entity.
    Timestamps are milliseconds since the epoch; the ISO-8601 text the pages store
    for them is a rendering of that number. */
module Entities {
  import opened Wrappers

  /** `communicationPreferences` of a user. */
  datatype Prefs = Prefs(email: bool, sms: bool)

  /** An entry of the `users` collection, as registration writes it. */
  datatype User = User(
    id: int,
    name: string,
    email: string,
    phone: string,
    password: string,
    role: string,
    address: string,
    avatar: Option<string>,
    communicationPreferences: Option<Prefs>,
    createdAt: int)

  /** The `loggedInUser` record: a password-free projection of a user, possibly
      overlaid with the profile form (which adds the two notification flags). */
  datatype Session = Session(
    id: int,
    email: string,
    role: string,
    name: string,
    phone: string,
    address: string,
    avatar: string,
    communicationPreferences: Option<Prefs>,
    emailNotifications: Option<bool>,
    smsNotifications: Option<bool>)

  /** An entry of `maintenanceRequests`. Images are opaque data-URL strings. */
  datatype Request = Request(
    id: int,
    category: string,
    urgency: string,
    description: string,
    status: string,
    date: string,
    images: seq<string>)

  /** An entry of the payment history, and the shape of the single upcoming payment
      (`paidVia` is the stored `method` field, renamed because `method` is a Dafny keyword). */
  datatype Payment = Payment(id: int, date: string, amount: int, status: string, paidVia: string)

  /** An entry of `messages`. */
  datatype Message = Message(id: int, sender: string, text: string, timestamp: int, status: string)

  /** An entry of `notifications`. */
  datatype Notification = Notification(id: int, kind: string, message: string, timestamp: int, read: bool)
}

=== FILE: entity_store.dfy ===
/** Browser storage as the pages use it: string keys, each holding one JSON document
    that is always read and written whole. */
module EntityStore {
  import opened Wrappers
  import opened Entities

  const UsersKey := "users"
  const SessionKey := "loggedInUser"
  const RequestsKey := "maintenanceRequests"
  const HistoryKey := "paymentHistory"
  const UpcomingKey := "upcomingPayment"
  const LandlordPaymentsKey := "payments"
  const MessagesKey := "messages"
  const NotificationsKey := "notifications"

  /** A stored document after parsing. `Malformed` is text that is not JSON of a known shape. */
  datatype Value =
    | UsersDoc(users: seq<User>)
    | SessionDoc(session: Session)
    | RequestsDoc(requests: seq<Request>)
    | PaymentsDoc(payments: seq<Payment>)
    | PaymentDoc(payment: Payment)
    | MessagesDoc(messages: seq<Message>)
    | NotificationsDoc(notifications: seq<Notification>)
    | Malformed(raw: string)

  type Store = map<string, Value>

  /** Replaces the whole document under `key` (`localStorage.setItem`). */
  function Put(st: Store, key: string, v: Value): (r: Store)
    ensures key in r && r[key] == v
    ensures forall k :: k != key ==> (k in r <==> k in st)
    ensures forall k :: k != key && k in st ==> r[k] == st[k]
  {
    st[key := v]
  }

  /** Deletes the document under `key` (`localStorage.removeItem`). */
  function Remove(st: Store, key: string): (r: Store)
    ensures key !in r
    ensures forall k :: k != key ==> (k in r <==> k in st)
    ensures forall k :: k != key && k in st ==> r[k] == st[k]
  {
    st - {key}
  }

  /** The two stores agree on every key except `key`. */
  ghost predicate SameExcept(a: Store, b: Store, key: string) {
    && (forall k :: k != key ==> (k in a <==> k in b))
    && (forall k :: k != key && k in a ==> a[k] == b[k])
  }

  function LoadUsers(st: Store): (r: Option<seq<User>>)
    ensures r.Some? <==> UsersKey in st && st[UsersKey].UsersDoc?
    ensures r.Some? ==> st[UsersKey] == UsersDoc(r.value)
  {
    if UsersKey in st && st[UsersKey].UsersDoc? then Some(st[UsersKey].users) else None
  }

  /** The session, or `None` when absent or unparseable (the pages' `try { JSON.parse } catch`). */
  function LoadSession(st: Store): (r: Option<Session>)
    ensures r.Some? <==> SessionKey in st && st[SessionKey].SessionDoc?
    ensures r.Some? ==> st[SessionKey] == SessionDoc(r.value)
  {
    if SessionKey in st && st[SessionKey].SessionDoc? then Some(st[SessionKey].session) else None
  }

  /** The gate of the tenant pages (dashboard, maintenance form, payment tracker): a
      stored session whose role is "tenant"; otherwise they redirect to the login page. */
  predicate TenantSignedIn(st: Store) {
    LoadSession(st).Some? && LoadSession(st).value.role == "tenant"
  }

  function LoadRequests(st: Store): (r: Option<seq<Request>>)
    ensures r.Some? <==> RequestsKey in st && st[RequestsKey].RequestsDoc?
    ensures r.Some? ==> st[RequestsKey] == RequestsDoc(r.value)
  {
    if RequestsKey in st && st[RequestsKey].RequestsDoc? then Some(st[RequestsKey].requests) else None
  }

  /** A payment list under `key`: the tracker uses `paymentHistory`, the landlord page `payments`. */
  function LoadPayments(st: Store, key: string): (r: Option<seq<Payment>>)
    ensures r.Some? <==> key in st && st[key].PaymentsDoc?
    ensures r.Some? ==> st[key] == PaymentsDoc(r.value)
  {
    if key in st && st[key].PaymentsDoc? then Some(st[key].payments) else None
  }

  function LoadUpcoming(st: Store): (r: Option<Payment>)
    ensures r.Some? <==> UpcomingKey in st && st[UpcomingKey].PaymentDoc?
    ensures r.Some? ==> st[UpcomingKey] == PaymentDoc(r.value)
  {
    if UpcomingKey in st && st[UpcomingKey].PaymentDoc? then Some(st[UpcomingKey].payment) else None
  }

  function LoadMessages(st: Store): (r: Option<seq<Message>>)
    ensures r.Some? <==> MessagesKey in st && st[MessagesKey].MessagesDoc?
    ensures r.Some? ==> st[MessagesKey] == MessagesDoc(r.value)
  {
    if MessagesKey in st && st[MessagesKey].MessagesDoc? then Some(st[MessagesKey].messages) else None
  }

  function LoadNotifications(st: Store): (r: Option<seq<Notification>>)
    ensures r.Some? <==> NotificationsKey in st && st[NotificationsKey].NotificationsDoc?
    ensures r.Some? ==> st[NotificationsKey] == NotificationsDoc(r.value)
  {
    if NotificationsKey in st && st[NotificationsKey].NotificationsDoc? then Some(st[NotificationsKey].notifications) else None
  }
}

=== FILE: landlord_dashboard.dfy ===
/** The landlord's dashboard: status updates of maintenance requests, the two filters,
    the headline counts and the recent-payments list. */
module LandlordDashboard {
  import opened Wrappers
  import opened Entities
  import opened EntityStore
  import opened Seqs
  import opened Palette

  /** What the page loads on mount. It reads the `payments` key, which the payment
      tracker never writes, and it consults no session at all. */
  datatype View = View(requests: seq<Request>, payments: seq<Payment>)

  function Load(st: Store): View {
    View(LoadRequests(st).GetOr([]), LoadPayments(st, LandlordPaymentsKey).GetOr([]))
  }

  /** There is no role gate: the view is the same whoever is logged in, or nobody. */
  lemma NoRoleGate(st: Store, session: Value)
    ensures Load(st[SessionKey := session]) == Load(st)
    ensures Load(st - {SessionKey}) == Load(st)
  {
  }

  /** `handleStatusUpdate(id, newStatus)` on the page's list: the `status` of every request
      with that id becomes `newStatus`; all other requests and fields stay as they were. */
  function UpdateStatus(requests: seq<Request>, id: int, newStatus: string): (r: seq<Request>)
    ensures |r| == |requests|
    ensures forall i :: 0 <= i < |r| ==> r[i].(status := requests[i].status) == requests[i]
    ensures forall i :: 0 <= i < |r| && requests[i].id == id ==> r[i].status == newStatus
    ensures forall i :: 0 <= i < |r| && requests[i].id != id ==> r[i] == requests[i]
  {
    seq(|requests|, i requires 0 <= i < |requests| =>
      if requests[i].id == id then requests[i].(status := newStatus) else requests[i])
  }

  /** The handler writes the whole updated list back and touches no other key. */
  function HandleStatusUpdate(st: Store, v: View, id: int, newStatus: string): (r: (Store, View))
    ensures r.1.payments == v.payments && r.1.requests == UpdateStatus(v.requests, id, newStatus)
    ensures LoadRequests(r.0) == Some(r.1.requests)
    ensures SameExcept(st, r.0, RequestsKey)
  {
    var updated := UpdateStatus(v.requests, id, newStatus);
    (Put(st, RequestsKey, RequestsDoc(updated)), v.(requests := updated))
  }

  /** No transition is refused: any status can follow any other, backwards included. */
  lemma AnyTransitionAllowed(requests: seq<Request>, i: int, newStatus: string)
    requires 0 <= i < |requests|
    ensures UpdateStatus(requests, requests[i].id, newStatus)[i].status == newStatus
  {
  }

  /** The same update applied twice is the update applied once. */
  lemma UpdateStatusIdempotent(requests: seq<Request>, id: int, newStatus: string)
    ensures UpdateStatus(UpdateStatus(requests, id, newStatus), id, newStatus) == UpdateStatus(requests, id, newStatus)
  {
  }

  /** The test each filter applies; "All" lets everything through. */
  predicate Passes(filter: string, value: string) {
    filter == "All" || value == filter
  }

  /** `filteredRequests`. */
  function FilterRequests(requests: seq<Request>, statusFilter: string, urgencyFilter: string): (r: seq<Request>)
    ensures Subsequence(r, requests)
    ensures forall i :: 0 <= i < |r| ==> Passes(statusFilter, r[i].status) && Passes(urgencyFilter, r[i].urgency)
    ensures forall i :: 0 <= i < |requests| && Passes(statusFilter, requests[i].status) && Passes(urgencyFilter, requests[i].urgency)
                        ==> requests[i] in r
    ensures |r| == Count((req: Request) => Passes(statusFilter, req.status) && Passes(urgencyFilter, req.urgency), requests)
    ensures statusFilter == "All" && urgencyFilter == "All" ==> r == requests
  {
    var keep := (req: Request) => Passes(statusFilter, req.status) && Passes(urgencyFilter, req.urgency);
    FilterIsSubsequence(keep, requests);
    if statusFilter == "All" && urgencyFilter == "All" then
      FilterAll(keep, requests);
      Filter(keep, requests)
    else
      Filter(keep, requests)
  }

  /** Filtering on both criteria is filtering on status, then on urgency. */
  lemma {:induction false} FiltersCompose(requests: seq<Request>, statusFilter: string, urgencyFilter: string)
    ensures FilterRequests(requests, statusFilter, urgencyFilter)
         == FilterRequests(FilterRequests(requests, statusFilter, "All"), "All", urgencyFilter)
  {
    if requests != [] {
      FiltersCompose(requests[1..], statusFilter, urgencyFilter);
    }
  }

  /** `pendingRequests`: the number of requests whose status is "Pending". */
  function PendingRequests(requests: seq<Request>): (n: nat)
    ensures n <= |requests|
    ensures n == 0 <==> forall i :: 0 <= i < |requests| ==> requests[i].status != "Pending"
  {
    Count((r: Request) => r.status == "Pending", requests)
  }

  /** `overduePayments`: the number of payments whose status is "Overdue". */
  function OverduePayments(payments: seq<Payment>): (n: nat)
    ensures n <= |payments|
    ensures n == 0 <==> forall i :: 0 <= i < |payments| ==> payments[i].status != "Overdue"
    ensures n == |payments| <==> forall i :: 0 <= i < |payments| ==> payments[i].status == "Overdue"
  {
    Count((p: Payment) => p.status == "Overdue", payments)
  }

  /** No payments, no overdue ones; one more payment raises the count exactly when it is overdue. */
  lemma OverdueAppend(payments: seq<Payment>, p: Payment)
    ensures OverduePayments([]) == 0
    ensures OverduePayments(payments + [p]) == OverduePayments(payments) + (if p.status == "Overdue" then 1 else 0)
  {
    CountAppend((q: Payment) => q.status == "Overdue", payments, [p]);
  }

  /** The pending count equals the length of the "Pending" / "All" filtered list. */
  lemma PendingMatchesFilter(requests: seq<Request>)
    ensures PendingRequests(requests) == |FilterRequests(requests, "Pending", "All")|
  {
    var p := (r: Request) => r.status == "Pending";
    var keep := (req: Request) => Passes("Pending", req.status) && Passes("All", req.urgency);
    CountIsFilterLength(p, requests);
    FilterSameTest(p, keep, requests);
  }

  lemma {:induction false} FilterSameTest<T>(p: T -> bool, q: T -> bool, s: seq<T>)
    requires forall x :: p(x) == q(x)
    ensures Filter(p, s) == Filter(q, s)
  {
    if s != [] {
      FilterSameTest(p, q, s[1..]);
    }
  }

  /** Setting a status to "Pending" never lowers the pending count. */
  lemma UpdateToPendingNeverLowersCount(requests: seq<Request>, id: int)
    ensures PendingRequests(requests) <= PendingRequests(UpdateStatus(requests, id, "Pending"))
  {
    var u := UpdateStatus(requests, id, "Pending");
    CountPointwise(requests, u);
  }

  lemma {:induction false} CountPointwise(a: seq<Request>, b: seq<Request>)
    requires |a| == |b|
    requires forall i :: 0 <= i < |a| && a[i].status == "Pending" ==> b[i].status == "Pending"
    ensures PendingRequests(a) <= PendingRequests(b)
  {
    if a != [] {
      CountPointwise(a[1..], b[1..]);
    }
  }

  /** `recentPayments`: the first five payments, or all when fewer. */
  function RecentPayments(payments: seq<Payment>): (r: seq<Payment>)
    ensures |r| == if |payments| < 5 then |payments| else 5
    ensures r == payments[..|r|]
  {
    Take(payments, 5)
  }

  /** `getUrgencyColor`. */
  function UrgencyColour(urgency: string): (c: Colour)
    ensures c == Gray <==> urgency !in {"High", "Medium", "Low"}
    ensures c == Red <==> urgency == "High"
    ensures c == Yellow <==> urgency == "Medium"
    ensures c == Green <==> urgency == "Low"
  {
    match urgency
    case "High" => Red
    case "Medium" => Yellow
    case "Low" => Green
    case _ => Gray
  }

  /** `getStatusColor`. */
  function StatusColour(status: string): (c: Colour)
    ensures c == Gray <==> status !in {"Completed", "In Progress", "Pending"}
    ensures c == Green <==> status == "Completed"
    ensures c == Blue <==> status == "In Progress"
    ensures c == Yellow <==> status == "Pending"
  {
    match status
    case "Completed" => Green
    case "In Progress" => Blue
    case "Pending" => Yellow
    case _ => Gray
  }
}

=== FILE: login.dfy ===
/** Signing in: the credential lookup over `users`, the session record it writes and
    the dashboard the user is sent to. */
module Login {
  import opened Wrappers
  import opened Entities
  import opened EntityStore
  import Register
  import Text

  const FillAllFields := "Please fill in all fields!"
  const InvalidCredentials := "Invalid email or password. Please try again or register."

  /** The user a credential pair names: email and password both equal. */
  predicate Matches(u: User, email: string, password: string) {
    u.email == email && u.password == password
  }

  /** `users.find`: the first user whose email and password both match. */
  function FindUser(users: seq<User>, email: string, password: string): (r: Option<nat>)
    ensures r.None? <==> forall i :: 0 <= i < |users| ==> !Matches(users[i], email, password)
    ensures r.Some? ==> r.value < |users| && Matches(users[r.value], email, password)
    ensures r.Some? ==> forall i :: 0 <= i < r.value ==> !Matches(users[i], email, password)
  {
    if users == [] then None
    else if Matches(users[0], email, password) then Some(0)
    else match FindUser(users[1..], email, password)
      case None => None
      case Some(i) => Some(i + 1)
  }

  /** The `loggedInUser` record built from a stored user: the password is dropped and a
      missing avatar becomes "". */
  function SessionOf(u: User): (s: Session)
    ensures s.id == u.id && s.email == u.email && s.role == u.role && s.name == u.name
    ensures s.phone == u.phone && s.address == u.address
    ensures s.communicationPreferences == u.communicationPreferences
    ensures s.avatar == if u.avatar.Some? then u.avatar.value else ""
    ensures s.emailNotifications.None? && s.smsNotifications.None?
  {
    Session(u.id, u.email, u.role, u.name, u.phone, u.address, u.avatar.GetOr(""),
            u.communicationPreferences, None, None)
  }

  datatype Route = LandlordHome | TenantHome

  /** Where a signed-in user goes: only the role "landlord" reaches the landlord dashboard. */
  function RouteFor(role: string): (r: Route)
    ensures r == LandlordHome <==> role == "landlord"
  {
    if role == "landlord" then LandlordHome else TenantHome
  }

  datatype Outcome = Rejected(error: string) | SignedIn(route: Route)

  /** `handleLogin`: empty fields are refused before storage is read; otherwise the first
      matching user is written as the session and routed by role. */
  function HandleLogin(st: Store, email: string, password: string): (r: (Store, Outcome))
    ensures email == "" || password == "" ==> r == (st, Rejected(FillAllFields))
    ensures r.1.Rejected? ==> r.0 == st
    ensures r.1.Rejected? ==> r.1.error in {FillAllFields, InvalidCredentials}
    ensures email != "" && password != "" ==>
      var users := LoadUsers(st).GetOr([]);
      r.1.SignedIn? <==> exists i :: 0 <= i < |users| && Matches(users[i], email, password)
    ensures email != "" && password != "" ==>
      var users := LoadUsers(st).GetOr([]);
      && (r.1 == Rejected(InvalidCredentials) <==> forall i :: 0 <= i < |users| ==> !Matches(users[i], email, password))
      && (r.1.SignedIn? ==>
            exists i :: 0 <= i < |users| && Matches(users[i], email, password)
              && (forall j :: 0 <= j < i ==> !Matches(users[j], email, password))
              && LoadSession(r.0) == Some(SessionOf(users[i]))
              && r.1.route == RouteFor(users[i].role))
    ensures SameExcept(st, r.0, SessionKey)
  {
    if email == "" || password == "" then (st, Rejected(FillAllFields))
    else
      var users := LoadUsers(st).GetOr([]);
      match FindUser(users, email, password)
      case None => (st, Rejected(InvalidCredentials))
      case Some(i) =>
        var s := SessionOf(users[i]);
        (Put(st, SessionKey, SessionDoc(s)), SignedIn(RouteFor(s.role)))
  }

  /** Appending a user whose email no earlier user has makes that user the one found. */
  lemma FindAppended(users: seq<User>, after: seq<User>, email: string, password: string)
    requires |after| == |users| + 1 && after[..|users|] == users
    requires !Register.EmailTaken(users, email)
    requires Matches(after[|users|], email, password)
    ensures FindUser(after, email, password) == Some(|users|)
  {
    forall i | 0 <= i < |users| ensures !Matches(after[i], email, password) {
      assert after[i] == users[i];
    }
  }

  /** A freshly registered account can sign in with the credentials it registered with
      and lands on the dashboard of its role. */
  lemma RegisterThenLogin(st: Store, f: Register.RegisterForm, now: int)
    requires Register.HandleSubmit(st, f, now).1 == map[]
    ensures var st1 := Register.HandleSubmit(st, f, now).0;
      var r := HandleLogin(st1, f.email, f.password);
      && r.1 == SignedIn(RouteFor(f.role))
      && LoadSession(r.0).Some? && LoadSession(r.0).value.email == f.email
  {
    var users := LoadUsers(st).GetOr([]);
    var st1 := Register.HandleSubmit(st, f, now).0;
    var after := LoadUsers(st1).value;
    assert !Text.IsBlank(f.email) && |f.password| >= Register.MinPasswordLength;
    assert f.email != "" && f.password != "";
    FindAppended(users, after, f.email, f.password);
  }
}

=== FILE: maintenance_form.dfy ===
/** The tenant's four-step maintenance request form: category, urgency, description
    with optional images, review and submit. */
module MaintenanceForm {
  import opened Wrappers
  import opened Entities
  import opened EntityStore
  import opened Seqs
  import opened Text

  const MaxCharacters := 500
  const MinCharacters := 10

  const Categories := ["Plumbing", "Electrical", "HVAC", "Appliances", "Structural", "Other"]
  const UrgencyLevels := ["Low", "Medium", "High"]
  const CommonIssues := [
    "Leaking faucet", "Broken heater", "No hot water", "AC not working",
    "Clogged drain", "Broken window", "Faulty wiring", "Door lock issue"
  ]

  datatype FormData = FormData(category: string, urgency: string, description: string, images: seq<string>)

  /** The single error `validateStep` can record for one step. */
  datatype FieldError = CategoryMissing | UrgencyMissing | DescriptionRequired | DescriptionTooShort | DescriptionTooLong

  function ErrorText(e: FieldError): string {
    match e
    case CategoryMissing => "Please select a category"
    case UrgencyMissing => "Please select an urgency level"
    case DescriptionRequired => "Description is required"
    case DescriptionTooShort => "Description must be at least 10 characters"
    case DescriptionTooLong => "Description cannot exceed 500 characters"
  }

  /** The component state: current step, form contents and the shown error. */
  datatype Form = Form(step: int, data: FormData, error: Option<FieldError>)

  const InitialForm := Form(1, FormData("", "", "", []), None)

  /** A description the form accepts: not blank, and 10 to 500 characters long. */
  predicate DescriptionAccepted(d: string) {
    !IsBlank(d) && MinCharacters <= |d| <= MaxCharacters
  }

  /** `validateStep`: step 1 needs a category, step 2 an urgency, step 3 a description,
      checked for blankness first, then the lower and the upper length bound. */
  function ValidateStep(data: FormData, step: int): (e: Option<FieldError>)
    ensures step == 1 ==> (e.None? <==> data.category != "")
    ensures step == 2 ==> (e.None? <==> data.urgency != "")
    ensures step == 3 ==> (e.None? <==> DescriptionAccepted(data.description))
    ensures step == 3 && IsBlank(data.description) ==> e == Some(DescriptionRequired)
    ensures step == 3 && !IsBlank(data.description) && |data.description| < MinCharacters ==> e == Some(DescriptionTooShort)
    ensures step == 3 && !IsBlank(data.description) && |data.description| > MaxCharacters ==> e == Some(DescriptionTooLong)
    ensures step != 1 && step != 2 && step != 3 ==> e.None?
  {
    if step == 1 && data.category == "" then Some(CategoryMissing)
    else if step == 2 && data.urgency == "" then Some(UrgencyMissing)
    else if step == 3 then
      if IsBlank(data.description) then Some(DescriptionRequired)
      else if |data.description| < MinCharacters then Some(DescriptionTooShort)
      else if |data.description| > MaxCharacters then Some(DescriptionTooLong)
      else None
    else None
  }

  /** `handleNext`: advance by one step when the current step validates; otherwise stay
      and show the error. */
  function HandleNext(f: Form): (r: Form)
    ensures r.data == f.data
    ensures ValidateStep(f.data, f.step).None? <==> r.step == f.step + 1
    ensures ValidateStep(f.data, f.step).Some? <==> r.step == f.step
    ensures r.error == ValidateStep(f.data, f.step)
  {
    var e := ValidateStep(f.data, f.step);
    if e.None? then f.(step := f.step + 1, error := None) else f.(error := e)
  }

  /** `handleBack`: one step back, errors cleared. */
  function HandleBack(f: Form): (r: Form)
    ensures r.step == f.step - 1 && r.data == f.data && r.error.None?
  {
    f.(step := f.step - 1, error := None)
  }

  /** `handleDescriptionChange`: text longer than 500 characters is ignored. */
  function HandleDescriptionChange(f: Form, value: string): (r: Form)
    ensures |r.data.description| <= MaxCharacters || r.data.description == f.data.description
    ensures |value| <= MaxCharacters ==> r.data.description == value && r.error.None?
    ensures |value| > MaxCharacters ==> r == f
    ensures r.step == f.step
    ensures r.data.(description := f.data.description) == f.data
  {
    if |value| <= MaxCharacters then f.(data := f.data.(description := value), error := None) else f
  }

  /** `removeImage(index)`: drop the image at `index`, keep the others in order. */
  function RemoveImage(images: seq<string>, index: int): (r: seq<string>)
    ensures 0 <= index < |images| ==> r == images[..index] + images[index + 1..]
    ensures !(0 <= index < |images|) ==> r == images
  {
    if images == [] then []
    else if index == 0 then images[1..]
    else [images[0]] + RemoveImage(images[1..], index - 1)
  }

  /** `issue.toLowerCase()` contains `description.toLowerCase()` somewhere. */
  ghost predicate Mentions(issue: string, description: string) {
    exists j :: OccursAt(Lower(issue), Lower(description), j)
  }

  /** The entries of `issues` that mention the description, in list order. */
  function MatchingIssues(issues: seq<string>, description: string): (r: seq<string>)
    ensures Subsequence(r, issues)
    ensures forall i :: 0 <= i < |r| ==> r[i] in issues && Mentions(r[i], description)
    ensures forall i :: 0 <= i < |issues| && Mentions(issues[i], description) ==> issues[i] in r
  {
    var matches := (issue: string) => Includes(Lower(issue), Lower(description));
    assert forall issue :: matches(issue) <==> Mentions(issue, description);
    FilterIsSubsequence(matches, issues);
    Filter(matches, issues)
  }

  /** The common issues offered as suggestions for the typed description. */
  function Suggestions(description: string): seq<string> {
    MatchingIssues(CommonIssues, description)
  }

  /** The suggestion list is shown for a non-empty description with at least one match. */
  predicate ShowSuggestions(description: string) {
    |description| > 0 && |Suggestions(description)| > 0
  }

  /** The page: the form, plus the image reads still in flight. `handleFiles` starts the
      reads and, when all of them finish, writes back the `formData` it captured when the
      files were picked with the new data URLs appended; each pending entry is that value. */
  datatype Page = Page(form: Form, uploads: seq<FormData>)

  const InitialPage := Page(InitialForm, [])

  /** The user actions the page offers, and the completion of a pending image read. */
  datatype Action =
    | SelectCategory(category: string)
    | SelectUrgency(urgency: string)
    | EditDescription(text: string)
    | PickSuggestion(suggestion: string)
    | PickImages(dataUrls: seq<string>)
    | ImagesRead(upload: int)
    | DropImage(index: int)
    | PressNext
    | PressBack

  /** Whether `a` can happen now: the choices of step 1 and 2, the text area, suggestions
      and image controls of step 3, Back above step 1 and Next below step 4; a pending read
      can finish at any step. */
  predicate Offered(p: Page, a: Action) {
    var f := p.form;
    match a
    case SelectCategory(c) => f.step == 1 && c in Categories
    case SelectUrgency(u) => f.step == 2 && u in UrgencyLevels
    case EditDescription(_) => f.step == 3
    case PickSuggestion(s) => f.step == 3 && ShowSuggestions(f.data.description) && s in Suggestions(f.data.description)
    case PickImages(_) => f.step == 3
    case ImagesRead(k) => 0 <= k < |p.uploads|
    case DropImage(_) => f.step == 3
    case PressNext => f.step < 4
    case PressBack => f.step > 1
  }

  /** The handler of an offered action; anything else changes nothing. A finished read
      replaces the whole form data by its captured value, whatever was edited since. */
  function Apply(p: Page, a: Action): Page {
    if !Offered(p, a) then p
    else
      var f := p.form;
      match a
      case SelectCategory(c) => p.(form := f.(data := f.data.(category := c), error := None))
      case SelectUrgency(u) => p.(form := f.(data := f.data.(urgency := u), error := None))
      case EditDescription(text) => p.(form := HandleDescriptionChange(f, text))
      case PickSuggestion(s) => p.(form := f.(data := f.data.(description := s)))
      case PickImages(urls) => p.(uploads := p.uploads + [f.data.(images := f.data.images + urls)])
      case ImagesRead(k) => Page(f.(data := p.uploads[k]), p.uploads[..k] + p.uploads[k + 1..])
      case DropImage(i) => p.(form := f.(data := f.data.(images := RemoveImage(f.data.images, i))))
      case PressNext => p.(form := HandleNext(f))
      case PressBack => p.(form := HandleBack(f))
  }

  /** Form data the page can hold: each choice is empty or one of the offered ones, and
      the description is within 500 characters. */
  ghost predicate DataInvariant(d: FormData) {
    && (d.category == "" || d.category in Categories)
    && (d.urgency == "" || d.urgency in UrgencyLevels)
    && |d.description| <= MaxCharacters
  }

  /** What holds of every page the user can reach: the step stays within 1..4, the steps
      passed hold a listed category and urgency, and every pending read will write back
      data with both choices made. */
  ghost predicate PageInvariant(p: Page) {
    && 1 <= p.form.step <= 4
    && DataInvariant(p.form.data)
    && (p.form.step >= 2 ==> p.form.data.category != "")
    && (p.form.step >= 3 ==> p.form.data.urgency != "")
    && forall d :: d in p.uploads ==> UploadReady(d)
  }

  /** Data a pending read may write back: captured at step 3, so both choices are made. */
  ghost predicate UploadReady(d: FormData) {
    DataInvariant(d) && d.category != "" && d.urgency != ""
  }

  /** The review step shows a description that step 3 accepted. */
  ghost predicate ReviewReady(f: Form) {
    f.step == 4 ==> DescriptionAccepted(f.data.description)
  }

  lemma CommonIssuesShort()
    ensures forall i :: 0 <= i < |CommonIssues| ==> |CommonIssues[i]| <= MaxCharacters
  {
  }

  /** Every action keeps the invariant, and the only one that can leave the review step
      with an unaccepted description is an image read finishing there. */
  lemma ApplyKeepsInvariant(p: Page, a: Action)
    requires PageInvariant(p)
    ensures PageInvariant(Apply(p, a))
    ensures ReviewReady(p.form) && !ReviewReady(Apply(p, a).form) ==> a.ImagesRead? && p.form.step == 4
  {
    match a
    case PickImages(urls) => PickImagesKeepsInvariant(p, urls);
    case ImagesRead(k) => ImagesReadKeepsInvariant(p, k);
    case PickSuggestion(suggestion) => SuggestionKeepsInvariant(p, suggestion);
    case _ => EditKeepsInvariant(p, a);
  }

  lemma EditKeepsInvariant(p: Page, a: Action)
    requires PageInvariant(p) && !a.PickImages? && !a.ImagesRead? && !a.PickSuggestion?
    ensures PageInvariant(Apply(p, a))
    ensures ReviewReady(p.form) ==> ReviewReady(Apply(p, a).form)
  {
    if Offered(p, a) {
      var f := p.form;
      match a
      case SelectCategory(c) =>
        assert Apply(p, a) == p.(form := f.(data := f.data.(category := c), error := None));
      case SelectUrgency(u) =>
        assert Apply(p, a) == p.(form := f.(data := f.data.(urgency := u), error := None));
      case EditDescription(text) =>
        assert Apply(p, a) == p.(form := HandleDescriptionChange(f, text));
      case DropImage(i) =>
        assert Apply(p, a) == p.(form := f.(data := f.data.(images := RemoveImage(f.data.images, i))));
      case PressNext =>
        assert Apply(p, a) == p.(form := HandleNext(f));
      case PressBack =>
        assert Apply(p, a) == p.(form := HandleBack(f));
    }
  }

  lemma SuggestionKeepsInvariant(p: Page, suggestion: string)
    requires PageInvariant(p)
    ensures PageInvariant(Apply(p, PickSuggestion(suggestion)))
    ensures Apply(p, PickSuggestion(suggestion)).form.step == p.form.step
  {
    if Offered(p, PickSuggestion(suggestion)) {
      var f := p.form;
      assert Apply(p, PickSuggestion(suggestion)) == p.(form := f.(data := f.data.(description := suggestion)));
      assert suggestion in CommonIssues;
      CommonIssuesShort();
    }
  }

  lemma PickImagesKeepsInvariant(p: Page, urls: seq<string>)
    requires PageInvariant(p)
    ensures PageInvariant(Apply(p, PickImages(urls)))
    ensures Apply(p, PickImages(urls)).form == p.form
  {
    if p.form.step == 3 {
      var d := p.form.data.(images := p.form.data.images + urls);
      assert Apply(p, PickImages(urls)) == p.(uploads := p.uploads + [d]);
      assert forall e :: e in p.uploads + [d] ==> e in p.uploads || e == d;
    }
  }

  lemma ImagesReadKeepsInvariant(p: Page, k: int)
    requires PageInvariant(p)
    ensures PageInvariant(Apply(p, ImagesRead(k)))
    ensures Apply(p, ImagesRead(k)).form.step == p.form.step
  {
    if 0 <= k < |p.uploads| {
      assert Apply(p, ImagesRead(k)) == Page(p.form.(data := p.uploads[k]), p.uploads[..k] + p.uploads[k + 1..]);
      assert p.uploads[k] in p.uploads;
      DropUploadKeeps(p.uploads, k);
    }
  }

  lemma DropUploadKeeps(uploads: seq<FormData>, k: int)
    requires 0 <= k < |uploads|
    ensures forall d :: d in uploads[..k] + uploads[k + 1..] ==> d in uploads
  {
    assert uploads == uploads[..k] + uploads[k..];
    assert uploads[k..] == [uploads[k]] + uploads[k + 1..];
  }

  /** The page after a sequence of actions. */
  function Run(p: Page, actions: seq<Action>): Page
    decreases |actions|
  {
    if actions == [] then p else Run(Apply(p, actions[0]), actions[1..])
  }

  lemma {:induction false} RunKeepsInvariant(p: Page, actions: seq<Action>)
    requires PageInvariant(p)
    ensures PageInvariant(Run(p, actions))
    decreases |actions|
  {
    if actions != [] {
      ApplyKeepsInvariant(p, actions[0]);
      RunKeepsInvariant(Apply(p, actions[0]), actions[1..]);
    }
  }

  /** Whatever happens, starting from the empty form, the invariant holds. */
  lemma ReachableFormsAreValid(actions: seq<Action>)
    ensures PageInvariant(Run(InitialPage, actions))
  {
    RunKeepsInvariant(InitialPage, actions);
  }

  /** Some image read finishes while the review step is shown. */
  predicate HasLateRead(p: Page, actions: seq<Action>)
    decreases |actions|
  {
    && actions != []
    && ((actions[0].ImagesRead? && Offered(p, actions[0]) && p.form.step == 4)
        || HasLateRead(Apply(p, actions[0]), actions[1..]))
  }

  /** Without a late read the review step only ever shows an accepted description. */
  lemma {:induction false} RunStaysReviewReady(p: Page, actions: seq<Action>)
    requires PageInvariant(p) && ReviewReady(p.form)
    ensures ReviewReady(Run(p, actions).form) || HasLateRead(p, actions)
    decreases |actions|
  {
    if actions != [] {
      ApplyKeepsInvariant(p, actions[0]);
      if ReviewReady(Apply(p, actions[0]).form) {
        RunStaysReviewReady(Apply(p, actions[0]), actions[1..]);
      }
    }
  }

  /** The record a valid submission appends. */
  function NewRequest(data: FormData, now: int, today: string): Request {
    Request(now, data.category, data.urgency, data.description, "Pending", today, data.images)
  }

  /** `handleSubmit`: re-validates the description only; on failure nothing is written,
      otherwise one "Pending" request is appended to the stored list (`[]` when absent). */
  function HandleSubmit(st: Store, data: FormData, now: int, today: string): (r: (Store, Option<FieldError>))
    ensures !DescriptionAccepted(data.description) ==> r.0 == st && r.1.Some? && r.1 == ValidateStep(data, 3)
    ensures DescriptionAccepted(data.description) ==>
      && r.1.None?
      && LoadRequests(r.0).Some?
      && var before := LoadRequests(st).GetOr([]);
         var after := LoadRequests(r.0).value;
         && |after| == |before| + 1
         && after[..|before|] == before
         && after[|before|].status == "Pending"
         && after[|before|].description == data.description
         && after[|before|].category == data.category && after[|before|].urgency == data.urgency
         && after[|before|].images == data.images
         && after[|before|].id == now && after[|before|].date == today
    ensures SameExcept(st, r.0, RequestsKey)
  {
    var e := ValidateStep(data, 3);
    if e.Some? then (st, e)
    else
      var existing := LoadRequests(st).GetOr([]);
      (Put(st, RequestsKey, RequestsDoc(existing + [NewRequest(data, now, today)])), None)
  }


  /** At the review step a submit either stores a request with a listed category and
      urgency or fails, and it fails only when an image read finished there. */
  lemma ReachableSubmit(st: Store, actions: seq<Action>, now: int, today: string)
    requires Run(InitialPage, actions).form.step == 4
    ensures var data := Run(InitialPage, actions).form.data;
            var r := HandleSubmit(st, data, now, today);
            && (r.1.Some? ==> HasLateRead(InitialPage, actions))
            && (r.1.None? ==> data.category in Categories && data.urgency in UrgencyLevels)
  {
    ReachableFormsAreValid(actions);
    RunStaysReviewReady(InitialPage, actions);
  }

  /** The actions of a tenant who picks a photo, then writes the description and moves to
      the review step before the photo has been read. */
  const StaleUploadActions := [
    SelectCategory("Plumbing"), PressNext, SelectUrgency("Low"), PressNext,
    PickImages(["data:image/png;base64,AA=="]),
    EditDescription("The kitchen sink leaks"), PressNext,
    ImagesRead(0)
  ]

  /** The late read restores the blank description captured with the photo, so the review
      step is shown with a form that submit rejects. */
  lemma StaleUploadBlocksSubmit(st: Store, now: int, today: string)
    ensures Run(InitialPage, StaleUploadActions).form.step == 4
    ensures Run(InitialPage, StaleUploadActions).form.data.description == ""
    ensures HandleSubmit(st, Run(InitialPage, StaleUploadActions).form.data, now, today) == (st, Some(DescriptionRequired))
  {
    StaleChoices();
    StaleUploadTail();
  }

  /** The page at step 3 once both choices are made, before any image is picked. */
  const StaleChosen := Page(Form(3, FormData("Plumbing", "Low", "", []), None), [])

  lemma StaleChoices()
    ensures Run(InitialPage, StaleUploadActions) == Run(StaleChosen, StaleUploadActions[4..])
  {
    var a := StaleUploadActions;
    var p1 := Page(Form(1, FormData("Plumbing", "", "", []), None), []);
    var p2 := Page(Form(2, FormData("Plumbing", "", "", []), None), []);
    var p3 := Page(Form(2, FormData("Plumbing", "Low", "", []), None), []);
    assert Apply(InitialPage, a[0]) == p1;
    assert Apply(p1, a[1]) == p2;
    assert Apply(p2, a[2]) == p3;
    assert Apply(p3, a[3]) == StaleChosen;
    assert a[1..][1..][1..][1..] == a[4..];
  }

  lemma StaleUploadTail()
    ensures Run(StaleChosen, StaleUploadActions[4..])
         == Page(Form(4, FormData("Plumbing", "Low", "", ["data:image/png;base64,AA=="]), None), [])
  {
    var a := StaleUploadActions[4..];
    var photo := ["data:image/png;base64,AA=="];
    var text := "The kitchen sink leaks";
    var captured := FormData("Plumbing", "Low", "", photo);
    var p5 := Page(Form(3, FormData("Plumbing", "Low", "", []), None), [captured]);
    var p6 := Page(Form(3, FormData("Plumbing", "Low", text, []), None), [captured]);
    var p7 := Page(Form(4, FormData("Plumbing", "Low", text, []), None), [captured]);
    var p8 := Page(Form(4, captured, None), []);
    assert [] + photo == photo;
    assert Apply(StaleChosen, a[0]) == p5;
    assert Apply(p5, a[1]) == p6;
    assert !IsBlank(text) && |text| == 22;
    assert Apply(p6, a[2]) == p7;
    assert Apply(p7, a[3]) == p8;
    assert Run(p7, a[3..]) == p8;
    assert Run(p6, a[2..]) == p8;
    assert Run(p5, a[1..]) == p8;
  }
}

=== FILE: messages.dfy ===
/** The messages page: the seeded conversation, sending, and the two delayed status
    updates each send schedules. A delayed update is modelled as a `Timer` value that
    carries what the callback captured when it was scheduled; firing it is a separate
    step, so every interleaving of sends and timers can be written down. */
module Messages {
  import opened Wrappers
  import opened Entities
  import opened EntityStore

  /** Any signed-in user may open the page; the role decides which side of the chat is "own". */
  predicate MayView(st: Store) {
    LoadSession(st).Some?
  }

  const Day := 86400000
  const Hour := 3600000
  const DeliveredDelay := 1000
  const ReadDelay := 3000

  /** The texts of the seeded conversation, in order. */
  const SeedTexts: seq<string> := [
    "Hello! How can I help you today?",
    "Hi! I submitted a maintenance request for the leaking faucet. Any update?",
    "Yes, I've scheduled a plumber to come by tomorrow at 2 PM. Will you be available?",
    "Perfect! I'll make sure to be home. Thank you!",
    "Great! Let me know if there are any issues.",
    "Will do. Also, when is the next rent payment due?"]

  /** The conversation stored on first visit; `now` stands for the clock at mount. */
  function Seed(now: int): (ms: seq<Message>)
    ensures |ms| == 6
    ensures forall i :: 0 <= i < |ms| ==> ms[i].id == i + 1 && ms[i].text == SeedTexts[i]
    ensures ms[0].sender == "landlord"
    ensures forall i :: 0 <= i < |ms| - 1 ==> ms[i].timestamp < ms[i + 1].timestamp && ms[i].sender != ms[i + 1].sender
    ensures ms[5].timestamp < now && ms[0].timestamp == now - Day
    ensures forall i :: 0 <= i < 4 ==> ms[i].status == "read"
    ensures ms[4].status == "delivered" && ms[5].status == "sent"
  {
    [ Message(1, "landlord", SeedTexts[0], now - Day, "read"),
      Message(2, "tenant", SeedTexts[1], now - 23 * Hour, "read"),
      Message(3, "landlord", SeedTexts[2], now - 22 * Hour, "read"),
      Message(4, "tenant", SeedTexts[3], now - 21 * Hour, "read"),
      Message(5, "landlord", SeedTexts[4], now - Hour, "delivered"),
      Message(6, "tenant", SeedTexts[5], now - 600000, "sent") ]
  }

  /** The mount effect: a stored conversation is shown as is; when none is stored the seed
      is written and shown. Nothing happens without a session. */
  function Mount(st: Store, now: int): (r: (Store, seq<Message>))
    ensures !MayView(st) ==> r == (st, [])
    ensures MayView(st) && MessagesKey in st ==> r == (st, LoadMessages(st).GetOr([]))
    ensures MayView(st) && MessagesKey !in st ==> r.1 == Seed(now) && LoadMessages(r.0) == Some(Seed(now))
    ensures SameExcept(st, r.0, MessagesKey)
  {
    if !MayView(st) then (st, [])
    else if MessagesKey in st then (st, LoadMessages(st).GetOr([]))
    else (Put(st, MessagesKey, MessagesDoc(Seed(now))), Seed(now))
  }

  /** Mounting twice seeds at most once: the second mount shows what the first stored. */
  lemma MountTwice(st: Store, now1: int, now2: int)
    requires MayView(st)
    ensures var (st1, ms1) := Mount(st, now1);
      Mount(st1, now2) == (st1, ms1)
  {
    assert MessagesKey != SessionKey;
  }

  /** The sender recorded for a new message: the session role, or "tenant" when it is empty. */
  function SenderFor(role: string): (s: string)
    ensures s != ""
    ensures role != "" ==> s == role
    ensures role == "" ==> s == "tenant"
  {
    if role != "" then role else "tenant"
  }

  /** A scheduled status update: after `delay` milliseconds it rewrites the conversation
      from `snapshot`, the list built at send time, changing only message `id`. */
  datatype Timer = Timer(snapshot: seq<Message>, id: int, status: string, delay: int)

  /** `msgs.map(m => m.id === id ? {...m, status} : m)` */
  function SetStatus(ms: seq<Message>, id: int, status: string): (r: seq<Message>)
    ensures |r| == |ms|
    ensures forall i :: 0 <= i < |ms| && ms[i].id == id ==> r[i] == ms[i].(status := status)
    ensures forall i :: 0 <= i < |ms| && ms[i].id != id ==> r[i] == ms[i]
  {
    seq(|ms|, i requires 0 <= i < |ms| => if ms[i].id == id then ms[i].(status := status) else ms[i])
  }

  datatype Sent = Sent(st: Store, shown: seq<Message>, delivered: Timer, read: Timer)

  /** `handleSendMessage`: the new message (id and timestamp from the clock, status "sent")
      is appended to the list on screen, which is stored, and two updates are scheduled. */
  function Send(st: Store, shown: seq<Message>, role: string, text: string, now: int): (r: Sent)
    ensures |r.shown| == |shown| + 1 && r.shown[..|shown|] == shown
    ensures r.shown[|shown|] == Message(now, SenderFor(role), text, now, "sent")
    ensures LoadMessages(r.st) == Some(r.shown)
    ensures r.delivered == Timer(r.shown, now, "delivered", DeliveredDelay)
    ensures r.read == Timer(r.shown, now, "read", ReadDelay)
    ensures SameExcept(st, r.st, MessagesKey)
  {
    var m := Message(now, SenderFor(role), text, now, "sent");
    var updated := shown + [m];
    Sent(Put(st, MessagesKey, MessagesDoc(updated)), updated,
         Timer(updated, now, "delivered", DeliveredDelay), Timer(updated, now, "read", ReadDelay))
  }

  /** A timer callback: it overwrites both the screen and storage with its snapshot,
      updated, whatever they hold by then. */
  function Fire(st: Store, t: Timer): (r: (Store, seq<Message>))
    ensures LoadMessages(r.0) == Some(r.1)
    ensures r.1 == SetStatus(t.snapshot, t.id, t.status)
    ensures SameExcept(st, r.0, MessagesKey)
  {
    var ms := SetStatus(t.snapshot, t.id, t.status);
    (Put(st, MessagesKey, MessagesDoc(ms)), ms)
  }

  /** Without interleaving, a sent message ends up "read" and nothing else changes. */
  lemma SendThenTimers(st: Store, shown: seq<Message>, role: string, text: string, now: int)
    requires forall i :: 0 <= i < |shown| ==> shown[i].id != now
    ensures var s := Send(st, shown, role, text, now);
      var (st1, _) := Fire(s.st, s.delivered);
      var (st2, ms2) := Fire(st1, s.read);
      && ms2 == shown + [Message(now, SenderFor(role), text, now, "read")]
      && LoadMessages(st2) == Some(ms2)
  {
    var s := Send(st, shown, role, text, now);
    var ms2 := Fire(Fire(s.st, s.delivered).0, s.read).1;
    assert ms2 == shown + [Message(now, SenderFor(role), text, now, "read")];
  }

  /** A timer firing does not look at what is stored: the result depends only on the timer. */
  lemma FireIgnoresCurrent(st1: Store, st2: Store, t: Timer)
    ensures LoadMessages(Fire(st1, t).0) == LoadMessages(Fire(st2, t).0)
  {
  }

  /** A message sent while an earlier message's timers are pending is lost from the
      conversation when one of those timers fires. */
  lemma LateTimerDropsLaterMessage(st: Store, shown: seq<Message>, role: string,
                                   text1: string, now1: int, text2: string, now2: int)
    requires now1 != now2
    ensures var a := Send(st, shown, role, text1, now1);
      var b := Send(a.st, a.shown, role, text2, now2);
      var (_, ms) := Fire(b.st, a.delivered);
      |ms| == |shown| + 1 && |b.shown| == |shown| + 2
      && (forall i :: 0 <= i < |ms| ==> ms[i].id != now2 || ms[i] in shown)
  {
  }

  /** Statuses can move backwards: if A's read timer fires after B was sent but before
      B's read timer, B's timer restores the status A had in B's snapshot. */
  lemma StatusRegression(st: Store, role: string, textA: string, textB: string)
    ensures
      var shown: seq<Message> := [];
      var a := Send(st, shown, role, textA, 1000);
      var (st1, ms1) := Fire(a.st, a.delivered);          // at 2000
      var b := Send(st1, ms1, role, textB, 2500);
      var (st2, _) := Fire(b.st, a.read);                  // at 4000
      var (st3, ms3) := Fire(st2, b.read);                 // at 5500
      && LoadMessages(st2).value[0].status == "read"
      && ms3[0].status == "delivered"
  {
    var a := Send(st, [], role, textA, 1000);
    var ms1 := Fire(a.st, a.delivered).1;
    assert ms1[0].status == "delivered";
    var b := Send(Fire(a.st, a.delivered).0, ms1, role, textB, 2500);
    assert b.read.snapshot[0].status == "delivered";
  }
}

=== FILE: notifications.dfy ===
/** The notification bell: the seeded list, the unread badge, marking one notification
    read, clearing the list, the "time ago" label and the icon per kind. */
module Notifications {
  import opened Wrappers
  import opened Entities
  import opened EntityStore
  import opened Seqs
  import opened Text

  const Minute := 60000
  const Hour := 3600000
  const Day := 86400000

  /** The texts of the seeded notifications, in order. */
  const SeedTexts: seq<string> := [
    "Your maintenance request #1234 has been approved",
    "Rent payment due in 3 days - $1,200",
    "New message from your landlord",
    "Technician scheduled for tomorrow at 2 PM"]

  /** The list stored when none is present; `now` stands for the clock at mount. */
  function Seed(now: int): (ns: seq<Notification>)
    ensures |ns| == 4
    ensures forall i :: 0 <= i < |ns| ==> ns[i].id == i + 1 && ns[i].timestamp == now - i * Day
    ensures forall i :: 0 <= i < |ns| ==> ns[i].message == SeedTexts[i]
    ensures ns[0].kind == "maintenance" && ns[1].kind == "payment" && ns[2].kind == "message" && ns[3].kind == "maintenance"
    ensures forall i :: 0 <= i < 3 ==> !ns[i].read
    ensures ns[3].read
  {
    [ Notification(1, "maintenance", SeedTexts[0], now, false),
      Notification(2, "payment", SeedTexts[1], now - Day, false),
      Notification(3, "message", SeedTexts[2], now - 2 * Day, false),
      Notification(4, "maintenance", SeedTexts[3], now - 3 * Day, true) ]
  }

  /** The mount effect: a stored list is shown as is, otherwise the seed is stored and shown. */
  function Mount(st: Store, now: int): (r: (Store, seq<Notification>))
    ensures NotificationsKey in st ==> r == (st, LoadNotifications(st).GetOr([]))
    ensures NotificationsKey !in st ==> r.1 == Seed(now) && LoadNotifications(r.0) == Some(Seed(now))
    ensures SameExcept(st, r.0, NotificationsKey)
  {
    if NotificationsKey in st then (st, LoadNotifications(st).GetOr([]))
    else (Put(st, NotificationsKey, NotificationsDoc(Seed(now))), Seed(now))
  }

  predicate Unread(n: Notification) { !n.read }

  /** The badge number: how many notifications are unread. */
  function UnreadCount(ns: seq<Notification>): (c: nat)
    ensures c <= |ns|
    ensures c == 0 <==> forall i :: 0 <= i < |ns| ==> ns[i].read
  {
    Count(Unread, ns)
  }

  /** The seed shows a badge of three. */
  lemma SeedBadge(now: int)
    ensures UnreadCount(Seed(now)) == 3
  {
    var ns := Seed(now);
    assert ns == [ns[0], ns[1], ns[2]] + [ns[3]];
    CountAppend(Unread, [ns[0], ns[1], ns[2]], [ns[3]]);
    assert [ns[0], ns[1], ns[2]] == [ns[0]] + [ns[1], ns[2]];
    CountAppend(Unread, [ns[0]], [ns[1], ns[2]]);
    assert [ns[1], ns[2]] == [ns[1]] + [ns[2]];
    CountAppend(Unread, [ns[1]], [ns[2]]);
  }

  /** `markAsRead` on a list: every notification with this id becomes read. */
  function MarkRead(ns: seq<Notification>, id: int): (r: seq<Notification>)
    ensures |r| == |ns|
    ensures forall i :: 0 <= i < |ns| && ns[i].id == id ==> r[i] == ns[i].(read := true)
    ensures forall i :: 0 <= i < |ns| && ns[i].id != id ==> r[i] == ns[i]
  {
    seq(|ns|, i requires 0 <= i < |ns| => if ns[i].id == id then ns[i].(read := true) else ns[i])
  }

  /** Marking is idempotent. */
  lemma MarkReadIdempotent(ns: seq<Notification>, id: int)
    ensures MarkRead(MarkRead(ns, id), id) == MarkRead(ns, id)
  {
  }

  /** Some unread notification carries this id. */
  ghost predicate HasUnread(ns: seq<Notification>, id: int) {
    exists i :: 0 <= i < |ns| && ns[i].id == id && !ns[i].read
  }

  /** Marking lowers the badge by one for each unread notification carrying the id. */
  lemma {:induction false} MarkReadCount(ns: seq<Notification>, id: int)
    ensures UnreadCount(MarkRead(ns, id)) + Count((n: Notification) => n.id == id && !n.read, ns) == UnreadCount(ns)
  {
    if ns != [] {
      assert MarkRead(ns, id)[1..] == MarkRead(ns[1..], id);
      MarkReadCount(ns[1..], id);
    }
  }

  /** Marking never raises the badge, and lowers it exactly when an unread notification
      carried this id. */
  lemma MarkReadBadge(ns: seq<Notification>, id: int)
    ensures UnreadCount(MarkRead(ns, id)) <= UnreadCount(ns)
    ensures UnreadCount(MarkRead(ns, id)) < UnreadCount(ns) <==> HasUnread(ns, id)
  {
    MarkReadCount(ns, id);
  }

  /** `markAsRead`: the marked list is shown and stored. */
  function MarkAsRead(st: Store, shown: seq<Notification>, id: int): (r: (Store, seq<Notification>))
    ensures r.1 == MarkRead(shown, id)
    ensures LoadNotifications(r.0) == Some(r.1)
    ensures SameExcept(st, r.0, NotificationsKey)
  {
    var updated := MarkRead(shown, id);
    (Put(st, NotificationsKey, NotificationsDoc(updated)), updated)
  }

  /** `clearAll`: the list is emptied and the stored copy removed. */
  function ClearAll(st: Store): (r: (Store, seq<Notification>))
    ensures r.1 == [] && NotificationsKey !in r.0
    ensures SameExcept(st, r.0, NotificationsKey)
  {
    (Remove(st, NotificationsKey), [])
  }

  /** Because clearing removes the key instead of storing an empty list, the next mount
      brings the seeded notifications back. */
  lemma ClearedListReseeds(st: Store, now: int)
    ensures Mount(ClearAll(st).0, now).1 == Seed(now)
  {
  }

  /** The "time ago" label before rendering: whole minutes under an hour, whole hours under
      a day, else whole days, each rounded down as `Math.floor` does. */
  datatype Ago = Minutes(n: int) | Hours(n: int) | Days(n: int)

  function AgoOf(now: int, timestamp: int): (a: Ago)
    ensures var diff := now - timestamp;
      && (a.Minutes? <==> diff < Hour)
      && (a.Hours? <==> Hour <= diff < Day)
      && (a.Days? <==> Day <= diff)
      && a.n * UnitOf(a) <= diff < (a.n + 1) * UnitOf(a)
  {
    var diff := now - timestamp;
    if diff / Minute < 60 then Minutes(diff / Minute)
    else if diff / Hour < 24 then Hours(diff / Hour)
    else Days(diff / Day)
  }

  /** Milliseconds per unit of a label. */
  function UnitOf(a: Ago): (u: int)
    ensures u > 0
  {
    match a
    case Minutes(_) => Minute
    case Hours(_) => Hour
    case Days(_) => Day
  }

  /** `formatTime`: the number followed by "m ago", "h ago" or "d ago"; the number reads
      back as the label's count. */
  function FormatTime(now: int, timestamp: int): (s: string)
    ensures var a := AgoOf(now, timestamp);
      && |s| > 5 && s[|s| - 5..] == SuffixOf(a)
      && IsIntText(s[..|s| - 5]) && ParseInt(s[..|s| - 5]) == a.n
  {
    var a := AgoOf(now, timestamp);
    var digits := IntToString(a.n);
    IntToStringRoundTrip(a.n);
    assert (digits + SuffixOf(a))[..|digits|] == digits;
    digits + SuffixOf(a)
  }

  /** Each suffix is five characters. */
  function SuffixOf(a: Ago): (s: string)
    ensures |s| == 5
  {
    match a
    case Minutes(_) => "m ago"
    case Hours(_) => "h ago"
    case Days(_) => "d ago"
  }

  const Wrench := "\U{1F527}"
  const MoneyBag := "\U{1F4B0}"
  const SpeechBubble := "\U{1F4AC}"
  const Bell := "\U{1F514}"

  /** `getNotificationIcon`: one icon per known kind, the bell for anything else. */
  function NotificationIcon(kind: string): (icon: string)
    ensures kind == "maintenance" <==> icon == Wrench
    ensures kind == "payment" <==> icon == MoneyBag
    ensures kind == "message" <==> icon == SpeechBubble
    ensures kind !in {"maintenance", "payment", "message"} <==> icon == Bell
  {
    if kind == "maintenance" then Wrench
    else if kind == "payment" then MoneyBag
    else if kind == "message" then SpeechBubble
    else Bell
  }
}

=== FILE: palette.dfy ===
/** The colour families of the status and urgency badges. The exact Tailwind class
    strings are presentation; only which family a value gets is modelled. */
module Palette {
  datatype Colour = Green | Yellow | Red | Blue | Gray
}

=== FILE: payment_tracker.dfy ===
/** The tenant's payment tracker: a payment history plus one upcoming payment, the
    "mark as paid" rollover, the yearly total and the month calendar's cell styling. */
module PaymentTracker {
  import opened Wrappers
  import opened Entities
  import opened EntityStore
  import opened Seqs
  import opened Text
  import opened Calendar
  import opened Palette

  /** The page state: the history list and the upcoming payment (`null` before loading). */
  datatype Ledger = Ledger(history: seq<Payment>, upcoming: Option<Payment>)

  /** The amount every new upcoming payment gets. */
  const RentAmount := 1500

  /** The only year whose payments count toward the total. */
  const TotalYear := 2024

  const SeedHistory: seq<Payment> := [
    Payment(1, "2024-10-01", 1500, "Paid", "Bank Transfer"),
    Payment(2, "2024-09-01", 1500, "Paid", "Cash"),
    Payment(3, "2024-08-01", 1500, "Paid", "Bank Transfer"),
    Payment(4, "2024-07-01", 1500, "Paid", "Check"),
    Payment(5, "2024-06-01", 1500, "Paid", "Bank Transfer")
  ]

  const SeedUpcoming := Payment(6, "2024-11-01", 1500, "Pending", "Bank Transfer")

  /** The ledger invariant: one pending upcoming payment whose id exceeds every
      history id, and a history of settled payments. */
  ghost predicate Rolling(l: Ledger) {
    && l.upcoming.Some?
    && l.upcoming.value.status == "Pending"
    && (forall i :: 0 <= i < |l.history| ==> l.history[i].id < l.upcoming.value.id)
    && (forall i :: 0 <= i < |l.history| ==> l.history[i].status == "Paid")
  }

  /** The mount effect. When both keys are present the stored values are used; when
      either is missing the demo seed is written to both, replacing the one present. */
  function Initialize(st: Store): (r: (Store, Ledger))
    ensures HistoryKey in st && UpcomingKey in st ==> r.0 == st
    ensures HistoryKey in st && UpcomingKey in st
            ==> r.1 == Ledger(LoadPayments(st, HistoryKey).GetOr([]), LoadUpcoming(st))
    ensures !(HistoryKey in st && UpcomingKey in st) ==>
      && r.1 == Ledger(SeedHistory, Some(SeedUpcoming))
      && Rolling(r.1)
      && LoadPayments(r.0, HistoryKey) == Some(r.1.history)
      && LoadUpcoming(r.0) == r.1.upcoming
      && forall k :: k != HistoryKey && k != UpcomingKey ==> (k in r.0 <==> k in st) && (k in st ==> r.0[k] == st[k])
  {
    if HistoryKey in st && UpcomingKey in st then
      (st, Ledger(LoadPayments(st, HistoryKey).GetOr([]), LoadUpcoming(st)))
    else
      var st' := Put(Put(st, HistoryKey, PaymentsDoc(SeedHistory)), UpcomingKey, PaymentDoc(SeedUpcoming));
      (st', Ledger(SeedHistory, Some(SeedUpcoming)))
  }

  /** `markAsPaid`: the upcoming payment, marked "Paid" and dated `today`, is put in front
      of the history; the new upcoming payment has the next id, is due on `nextMonth`
      (today plus one month) and is for the fixed rent amount. Both keys are rewritten. */
  function MarkAsPaid(st: Store, l: Ledger, today: string, nextMonth: string): (r: (Store, Ledger))
    requires l.upcoming.Some?
    ensures |r.1.history| == |l.history| + 1
    ensures r.1.history[0] == l.upcoming.value.(status := "Paid", date := today)
    ensures r.1.history[1..] == l.history
    ensures r.1.upcoming.Some? && r.1.upcoming.value.id == l.upcoming.value.id + 1
    ensures r.1.upcoming.value.status == "Pending" && r.1.upcoming.value.amount == RentAmount
    ensures r.1.upcoming.value.date == nextMonth && r.1.upcoming.value.paidVia == "Bank Transfer"
    ensures LoadPayments(r.0, HistoryKey) == Some(r.1.history) && LoadUpcoming(r.0) == r.1.upcoming
    ensures forall k :: k != HistoryKey && k != UpcomingKey ==> (k in r.0 <==> k in st) && (k in st ==> r.0[k] == st[k])
  {
    var paid := l.upcoming.value.(status := "Paid", date := today);
    var history := [paid] + l.history;
    var next := Payment(l.upcoming.value.id + 1, nextMonth, RentAmount, "Pending", "Bank Transfer");
    var st' := Put(Put(st, HistoryKey, PaymentsDoc(history)), UpcomingKey, PaymentDoc(next));
    (st', Ledger(history, Some(next)))
  }

  /** The seeded ledger satisfies the invariant and `markAsPaid` preserves it. */
  lemma MarkAsPaidKeepsRolling(st: Store, l: Ledger, today: string, nextMonth: string)
    requires Rolling(l)
    ensures Rolling(MarkAsPaid(st, l, today, nextMonth).1)
  {
    var r := MarkAsPaid(st, l, today, nextMonth).1;
    forall i | 0 <= i < |r.history|
      ensures r.history[i].id < r.upcoming.value.id && r.history[i].status == "Paid"
    {
      if i > 0 {
        assert r.history[i] == l.history[i - 1];
      }
    }
  }

  /** `markAsPaid` is not idempotent: two calls add two entries and advance the id by two. */
  lemma MarkAsPaidTwice(st: Store, l: Ledger, d1: string, n1: string, d2: string, n2: string)
    requires l.upcoming.Some?
    ensures var (st1, l1) := MarkAsPaid(st, l, d1, n1);
            var (_, l2) := MarkAsPaid(st1, l1, d2, n2);
            |l2.history| == |l.history| + 2 && l2.upcoming.value.id == l.upcoming.value.id + 2
            && l2.history[1].id == l.upcoming.value.id && l2.history[2..] == l.history
  {
    var (st1, l1) := MarkAsPaid(st, l, d1, n1);
    var (_, l2) := MarkAsPaid(st1, l1, d2, n2);
    assert l2.history[2..] == l2.history[1..][1..];
  }

  /** The landlord dashboard reads the `payments` key, which `markAsPaid` never writes:
      settling a payment is invisible there. */
  lemma MarkAsPaidInvisibleToLandlord(st: Store, l: Ledger, today: string, nextMonth: string)
    requires l.upcoming.Some?
    ensures LoadPayments(MarkAsPaid(st, l, today, nextMonth).0, LandlordPaymentsKey) == LoadPayments(st, LandlordPaymentsKey)
  {
  }

  /** The year of an ISO date (`new Date(date).getFullYear()` for `YYYY-...` text). */
  function YearOf(date: string): (y: Option<int>)
    ensures y.Some? <==> |date| >= 4 && AllDigits(date[..4])
    ensures y.Some? ==> IsIntText(date[..4]) && y.value == ParseInt(date[..4])
    ensures y.Some? ==> 0 <= y.value <= 9999
  {
    if |date| >= 4 && AllDigits(date[..4]) then
      var v := DigitsValue(date[..4]);
      assert v <= 9999 by { DigitsBound(date[..4]); }
      Some(v)
    else None
  }

  /** A four-digit year written into a calendar date key is read back by `YearOf`. */
  lemma YearOfDateKey(year: int, month0: nat, day: nat)
    requires 1000 <= year <= 9999
    ensures YearOf(DateKey(year, month0, day)) == Some(year)
  {
    var digits := NatToString(year);
    FourDigits(year);
    var key := DateKey(year, month0, day);
    assert key[..4] == digits;
    NatToStringRoundTrip(year);
  }

  lemma FourDigits(n: nat)
    requires 1000 <= n <= 9999
    ensures |NatToString(n)| == 4
  {
    assert |NatToString(n / 10 / 10 / 10)| == 1;
    assert |NatToString(n / 10 / 10)| == 2;
    assert |NatToString(n / 10)| == 3;
  }

  lemma {:induction false} DigitsBound(s: string)
    requires AllDigits(s)
    ensures DigitsValue(s) < Pow10(|s|)
  {
    if s != [] {
      DigitsBound(s[..|s| - 1]);
    }
  }

  function Pow10(n: nat): nat {
    if n == 0 then 1 else 10 * Pow10(n - 1)
  }

  /** A history entry counts toward the total: paid, and dated in 2024. */
  predicate CountsThisYear(p: Payment) {
    YearOf(p.date) == Some(TotalYear) && p.status == "Paid"
  }

  function SumAmounts(ps: seq<Payment>): int {
    if ps == [] then 0 else ps[0].amount + SumAmounts(ps[1..])
  }

  /** `totalPaidThisYear`: filter, then add up the amounts. */
  function TotalPaidThisYear(ps: seq<Payment>): int {
    SumAmounts(Filter(CountsThisYear, ps))
  }

  lemma {:induction false} SumAmountsAppend(a: seq<Payment>, b: seq<Payment>)
    ensures SumAmounts(a + b) == SumAmounts(a) + SumAmounts(b)
  {
    if a != [] {
      assert (a + b)[1..] == a[1..] + b;
      SumAmountsAppend(a[1..], b);
    } else {
      assert a + b == b;
    }
  }

  /** Inserting one entry anywhere changes the total by its amount when it counts and
      not at all when it fails either test (wrong year, or not "Paid"). */
  lemma TotalInsert(a: seq<Payment>, p: Payment, b: seq<Payment>)
    ensures TotalPaidThisYear(a + [p] + b)
         == TotalPaidThisYear(a + b) + (if CountsThisYear(p) then p.amount else 0)
  {
    FilterAppend(CountsThisYear, a + [p], b);
    FilterAppend(CountsThisYear, a, [p]);
    FilterAppend(CountsThisYear, a, b);
    var fa, fp, fb := Filter(CountsThisYear, a), Filter(CountsThisYear, [p]), Filter(CountsThisYear, b);
    SumAmountsAppend(fa + fp, fb);
    SumAmountsAppend(fa, fp);
    SumAmountsAppend(fa, fb);
  }

  /** The total is the sum over the entries that count. */
  lemma TotalIsSumOfCounted(ps: seq<Payment>)
    ensures ps == [] ==> TotalPaidThisYear(ps) == 0
    ensures forall i :: 0 <= i < |ps| && !CountsThisYear(ps[i]) ==>
      TotalPaidThisYear(ps) == TotalPaidThisYear(ps[..i] + ps[i + 1..])
  {
    forall i | 0 <= i < |ps| && !CountsThisYear(ps[i])
      ensures TotalPaidThisYear(ps) == TotalPaidThisYear(ps[..i] + ps[i + 1..])
    {
      assert ps == ps[..i] + [ps[i]] + ps[i + 1..];
      TotalInsert(ps[..i], ps[i], ps[i + 1..]);
    }
  }

  /** After `markAsPaid` the total grows by the settled amount exactly when today is in 2024. */
  lemma TotalAfterMarkAsPaid(st: Store, l: Ledger, today: string, nextMonth: string)
    requires l.upcoming.Some?
    ensures TotalPaidThisYear(MarkAsPaid(st, l, today, nextMonth).1.history)
         == TotalPaidThisYear(l.history) + (if YearOf(today) == Some(TotalYear) then l.upcoming.value.amount else 0)
  {
    var h := MarkAsPaid(st, l, today, nextMonth).1.history;
    assert h == [] + [h[0]] + l.history;
    TotalInsert([], h[0], l.history);
  }

  /** `getStatusColor` of the tracker: a total map that falls back to gray. */
  function StatusColour(status: string): (c: Colour)
    ensures c == Gray <==> status !in {"Paid", "Pending", "Overdue"}
    ensures c == Green <==> status == "Paid"
    ensures c == Yellow <==> status == "Pending"
    ensures c == Red <==> status == "Overdue"
  {
    match status
    case "Paid" => Green
    case "Pending" => Yellow
    case "Overdue" => Red
    case _ => Gray
  }

  /** `allPaymentDates` as written: `[...payments, upcomingPayment].map(p => p.date)`.
      `None` stands for the TypeError raised when the upcoming payment is still `null`,
      which is the case on the page's first render. */
  function AllPaymentDatesAsWritten(l: Ledger): (r: Option<seq<string>>)
    ensures r.None? <==> l.upcoming.None?
  {
    if l.upcoming.None? then None
    else Some(seq(|l.history|, i requires 0 <= i < |l.history| => l.history[i].date) + [l.upcoming.value.date])
  }

  /** The state the page renders with before its mount effect runs. */
  const FirstRender := Ledger([], None)

  lemma FirstRenderCrashes()
    ensures AllPaymentDatesAsWritten(FirstRender).None?
  {
  }

  /** The payment dates with a missing upcoming payment skipped: every history date,
      plus the due date when there is one. */
  function AllPaymentDates(l: Ledger): (r: seq<string>)
    ensures |r| == |l.history| + (if l.upcoming.Some? then 1 else 0)
    ensures forall i :: 0 <= i < |l.history| ==> l.history[i].date in r
    ensures l.upcoming.Some? ==> l.upcoming.value.date in r
    ensures forall d :: d in r ==> (exists i :: 0 <= i < |l.history| && l.history[i].date == d)
                                   || (l.upcoming.Some? && l.upcoming.value.date == d)
  {
    var past := seq(|l.history|, i requires 0 <= i < |l.history| => l.history[i].date);
    assert forall i :: 0 <= i < |l.history| ==> past[i] == l.history[i].date;
    if l.upcoming.Some? then past + [l.upcoming.value.date] else past
  }

  /** Once loaded, the corrected list agrees with the page's own. */
  lemma AllPaymentDatesAgree(l: Ledger)
    requires l.upcoming.Some?
    ensures AllPaymentDatesAsWritten(l) == Some(AllPaymentDates(l))
  {
  }

  /** `isPaymentDate(day)`. */
  predicate IsPaymentDate(cell: Cell, year: int, month0: nat, dates: seq<string>) {
    cell.Day? && cell.n >= 0 && DateKey(year, month0, cell.n) in dates
  }

  /** `isDueDate(day)`. */
  predicate IsDueDate(cell: Cell, year: int, month0: nat, upcoming: Option<Payment>) {
    cell.Day? && cell.n >= 0 && upcoming.Some? && upcoming.value.date == DateKey(year, month0, cell.n)
  }

  /** How a calendar cell is drawn. */
  datatype CellLook = Transparent | PlainDay | PastPayment | DueDay

  /** The class expression of a calendar cell: green when a payment date that is not the
      due date, yellow when the due date, plain otherwise. */
  function CellStyle(cell: Cell, year: int, month0: nat, l: Ledger): (look: CellLook)
    ensures look == DueDay <==> IsDueDate(cell, year, month0, l.upcoming)
    ensures look == PastPayment <==>
      (IsPaymentDate(cell, year, month0, AllPaymentDates(l)) && !IsDueDate(cell, year, month0, l.upcoming))
    ensures look == Transparent <==> cell.Blank?
  {
    if cell.Blank? then Transparent
    else if IsDueDate(cell, year, month0, l.upcoming) then DueDay
    else if IsPaymentDate(cell, year, month0, AllPaymentDates(l)) then PastPayment
    else PlainDay
  }

  /** The due date is itself one of the payment dates, so a due day always meets both
      tests and gets only the due-day styling. */
  lemma DueDayIsPaymentDay(cell: Cell, year: int, month0: nat, l: Ledger)
    requires IsDueDate(cell, year, month0, l.upcoming)
    ensures IsPaymentDate(cell, year, month0, AllPaymentDates(l))
    ensures CellStyle(cell, year, month0, l) == DueDay
  {
  }

  /** At most one cell of a month carries the due-day styling. */
  lemma AtMostOneDueDay(year: int, month0: nat, l: Ledger, a: Cell, b: Cell)
    requires a.Day? && b.Day? && 0 <= a.n < 100 && 0 <= b.n < 100
    requires CellStyle(a, year, month0, l) == DueDay && CellStyle(b, year, month0, l) == DueDay
    ensures a == b
  {
    DateKeyInjective(year, month0, a.n, b.n);
  }
}

=== FILE: profile.dfy ===
/** The profile page: the editable copy of the session, saving it back over the
    session record, signing out, and the display-only password change. */
module Profile {
  import opened Wrappers
  import opened Entities
  import opened EntityStore

  /** Any signed-in user, of either role, may open the page. */
  predicate MayView(st: Store) {
    LoadSession(st).Some?
  }

  /** The form state `profileData`. */
  datatype ProfileData = ProfileData(
    name: string, email: string, phone: string, address: string, avatar: string,
    emailNotifications: bool, smsNotifications: bool)

  /** The form before the session has been copied in. */
  const BlankProfile := ProfileData("", "", "", "", "", true, false)

  /** The form filled from the session on first render: missing notification flags
      default to email on, SMS off. */
  function InitialProfile(s: Session): (d: ProfileData)
    ensures d.name == s.name && d.email == s.email && d.phone == s.phone
    ensures d.address == s.address && d.avatar == s.avatar
    ensures d.emailNotifications == (s.emailNotifications.None? || s.emailNotifications.value)
    ensures d.smsNotifications == (s.smsNotifications.Some? && s.smsNotifications.value)
  {
    ProfileData(s.name, s.email, s.phone, s.address, s.avatar,
                s.emailNotifications.GetOr(true), s.smsNotifications.GetOr(false))
  }

  /** The session overlaid with the form (`{...user, ...profileData}`). */
  function Overlay(s: Session, d: ProfileData): (r: Session)
    ensures r.id == s.id && r.role == s.role && r.communicationPreferences == s.communicationPreferences
    ensures r.name == d.name && r.email == d.email && r.phone == d.phone
    ensures r.address == d.address && r.avatar == d.avatar
    ensures r.emailNotifications == Some(d.emailNotifications)
    ensures r.smsNotifications == Some(d.smsNotifications)
  {
    s.(name := d.name, email := d.email, phone := d.phone, address := d.address,
       avatar := d.avatar, emailNotifications := Some(d.emailNotifications),
       smsNotifications := Some(d.smsNotifications))
  }

  /** `handleSaveProfile`: only the session record is rewritten. The page is only shown
      to a signed-in user, so a session is present. */
  function SaveProfile(st: Store, d: ProfileData): (r: Store)
    requires MayView(st)
    ensures LoadSession(r) == Some(Overlay(LoadSession(st).value, d))
    ensures SameExcept(st, r, SessionKey)
  {
    Put(st, SessionKey, SessionDoc(Overlay(LoadSession(st).value, d)))
  }

  /** Reopening the page after a save shows exactly what was saved. */
  lemma SaveThenReload(st: Store, d: ProfileData)
    requires MayView(st)
    ensures MayView(SaveProfile(st, d))
    ensures InitialProfile(LoadSession(SaveProfile(st, d)).value) == d
  {
  }

  /** Saving leaves the `users` collection alone, so a changed email or name is not what
      the next sign-in checks against or copies from. */
  lemma SaveLeavesAccounts(st: Store, d: ProfileData)
    requires MayView(st)
    ensures LoadUsers(SaveProfile(st, d)) == LoadUsers(st)
  {
    assert UsersKey != SessionKey;
  }

  /** `handleLogout`: the session is removed and the page is no longer viewable. */
  function Logout(st: Store): (r: Store)
    ensures !MayView(r)
    ensures SameExcept(st, r, SessionKey)
  {
    Remove(st, SessionKey)
  }

  /** The password form `passwordData`. */
  datatype PasswordData = PasswordData(currentPassword: string, newPassword: string, confirmPassword: string)

  const MinPasswordLength := 6

  datatype PasswordOutcome = Mismatch | TooShort | Updated

  /** `handlePasswordUpdate`: a mismatch is reported before length; on success the form
      is cleared. The current password is never checked and nothing is stored. */
  function HandlePasswordUpdate(p: PasswordData): (r: (PasswordData, PasswordOutcome))
    ensures r.1 == Mismatch <==> p.newPassword != p.confirmPassword
    ensures r.1 == TooShort <==> p.newPassword == p.confirmPassword && |p.newPassword| < MinPasswordLength
    ensures r.1 == Updated <==> p.newPassword == p.confirmPassword && |p.newPassword| >= MinPasswordLength
    ensures r.1 == Updated ==> r.0 == PasswordData("", "", "")
    ensures r.1 != Updated ==> r.0 == p
  {
    if p.newPassword != p.confirmPassword then (p, Mismatch)
    else if |p.newPassword| < MinPasswordLength then (p, TooShort)
    else (PasswordData("", "", ""), Updated)
  }

  /** The outcome does not depend on the current password. */
  lemma CurrentPasswordIgnored(p: PasswordData, other: string)
    ensures HandlePasswordUpdate(p).1 == HandlePasswordUpdate(p.(currentPassword := other)).1
  {
  }
}

=== FILE: register.dfy ===
/** Account registration: field validation, the duplicate-email check and the append
    to the `users` collection. */
module Register {
  import opened Wrappers
  import opened Entities
  import opened EntityStore
  import opened Seqs
  import opened Text

  datatype RegisterForm = RegisterForm(
    name: string, email: string, phone: string, password: string,
    confirmPassword: string, role: string, address: string)

  datatype Field = Name | Email | Phone | Password | ConfirmPassword | Address

  /** The inline error messages, at most one per field. */
  type Errors = map<Field, string>

  const MinPasswordLength := 6

  /** The regular expression `\S+@\S+\.\S+` matches `s` with its `@` at `at` and its `.` at
      `dot`: a non-space before the `@`, only non-spaces (at least one) between the two,
      and a non-space after the `.`. The expression is unanchored, so nothing else matters. */
  predicate EmailMatchAt(s: string, at: int, dot: int) {
    && 0 < at && at + 1 < dot && dot + 1 < |s|
    && s[at] == '@' && s[dot] == '.'
    && !IsSpace(s[at - 1]) && !IsSpace(s[dot + 1])
    && forall k :: at < k < dot ==> !IsSpace(s[k])
  }

  /** Some position pair satisfies `EmailMatchAt`: `/\S+@\S+\.\S+/.test(s)` holds. */
  ghost predicate EmailShaped(s: string) {
    exists at, dot :: EmailMatchAt(s, at, dot)
  }

  /** Scans for the `.` of a match whose `@` is at `at`, from position `dot` on, knowing
      that everything between the `@` and `dot` is non-space. */
  function DotFrom(s: string, at: int, dot: int): (b: bool)
    requires 0 < at < dot <= |s| && s[at] == '@' && !IsSpace(s[at - 1])
    requires forall k :: at < k < dot ==> !IsSpace(s[k])
    ensures b <==> exists d :: dot <= d && EmailMatchAt(s, at, d)
    decreases |s| - dot
  {
    if dot + 1 >= |s| then false
    else if IsSpace(s[dot]) then
      assert forall d :: dot <= d ==> !EmailMatchAt(s, at, d);
      false
    else if at + 2 <= dot && s[dot] == '.' && !IsSpace(s[dot + 1]) then
      assert EmailMatchAt(s, at, dot);
      true
    else
      var rest := DotFrom(s, at, dot + 1);
      assert !EmailMatchAt(s, at, dot);
      rest
  }

  /** Scans for the `@` of a match from position `at` on. */
  function AtFrom(s: string, at: int): (b: bool)
    requires 0 < at
    ensures b <==> exists a, d :: at <= a && EmailMatchAt(s, a, d)
    decreases |s| - at
  {
    if at + 1 >= |s| then
      assert forall a, d :: at <= a ==> !EmailMatchAt(s, a, d);
      false
    else if s[at] == '@' && !IsSpace(s[at - 1]) && DotFrom(s, at, at + 1) then
      true
    else
      var rest := AtFrom(s, at + 1);
      assert forall d :: !EmailMatchAt(s, at, d);
      rest
  }

  /** `/\S+@\S+\.\S+/.test(s)`. */
  function EmailPatternMatches(s: string): (b: bool)
    ensures b <==> EmailShaped(s)
  {
    AtFrom(s, 1)
  }

  /** The characters `formData.phone.replace(/[-()\s]/g, "")` deletes. */
  predicate PhoneFiller(c: char) {
    c == '-' || c == '(' || c == ')' || IsSpace(c)
  }

  /** The phone number with dashes, parentheses and whitespace removed. */
  function StripPhone(phone: string): (r: string)
    ensures Subsequence(r, phone)
    ensures forall i :: 0 <= i < |r| ==> !PhoneFiller(r[i])
    ensures forall i :: 0 <= i < |phone| && !PhoneFiller(phone[i]) ==> phone[i] in r
    ensures |r| == Count((c: char) => !PhoneFiller(c), phone)
  {
    var keep := (c: char) => !PhoneFiller(c);
    FilterIsSubsequence(keep, phone);
    Filter(keep, phone)
  }

  /** `/^\d{10}$/` on the stripped number: exactly ten ASCII digits. */
  predicate PhoneDigitsOk(phone: string) {
    var digits := StripPhone(phone);
    |digits| == 10 && AllDigits(digits)
  }

  /** A name or address is rejected when it is empty once trimmed. */
  function RequiredError(value: string, message: string): (m: Option<string>)
    ensures m.None? <==> !IsBlank(value)
  {
    if IsBlank(value) then Some(message) else None
  }

  /** The email check: required (after trimming), then the pattern on the untrimmed text. */
  function EmailError(email: string): (m: Option<string>)
    ensures m.None? <==> !IsBlank(email) && EmailShaped(email)
    ensures IsBlank(email) ==> m == Some("Email is required")
  {
    if IsBlank(email) then Some("Email is required")
    else if !EmailPatternMatches(email) then Some("Email is invalid")
    else None
  }

  /** The phone check: required (after trimming), then ten digits once fillers are removed. */
  function PhoneError(phone: string): (m: Option<string>)
    ensures m.None? <==> !IsBlank(phone) && PhoneDigitsOk(phone)
    ensures IsBlank(phone) ==> m == Some("Phone number is required")
  {
    if IsBlank(phone) then Some("Phone number is required")
    else if !PhoneDigitsOk(phone) then Some("Phone number must be 10 digits")
    else None
  }

  /** The password check: required, then at least six characters. */
  function PasswordError(password: string): (m: Option<string>)
    ensures m.None? <==> |password| >= MinPasswordLength
    ensures password == "" ==> m == Some("Password is required")
  {
    if password == "" then Some("Password is required")
    else if |password| < MinPasswordLength then Some("Password must be at least 6 characters")
    else None
  }

  /** The confirmation check, made whatever the password check found. */
  function ConfirmError(password: string, confirmPassword: string): (m: Option<string>)
    ensures m.None? <==> password == confirmPassword
  {
    if password != confirmPassword then Some("Passwords do not match") else None
  }

  /** The message, if any, that `validateForm` records for one field. */
  function FieldError(f: RegisterForm, field: Field): (m: Option<string>)
    ensures field == Name ==> (m.Some? <==> IsBlank(f.name))
    ensures field == Address ==> (m.Some? <==> IsBlank(f.address))
    ensures field == Email ==> (m.Some? <==> IsBlank(f.email) || !EmailShaped(f.email))
    ensures field == Phone ==> (m.Some? <==> IsBlank(f.phone) || !PhoneDigitsOk(f.phone))
    ensures field == Password ==> (m.Some? <==> |f.password| < MinPasswordLength)
    ensures field == ConfirmPassword ==> (m.Some? <==> f.password != f.confirmPassword)
  {
    match field
    case Name => RequiredError(f.name, "Name is required")
    case Email => EmailError(f.email)
    case Phone => PhoneError(f.phone)
    case Password => PasswordError(f.password)
    case ConfirmPassword => ConfirmError(f.password, f.confirmPassword)
    case Address => RequiredError(f.address, "Address is required")
  }

  /** Every field passes its check. */
  ghost predicate FormValid(f: RegisterForm) {
    && !IsBlank(f.name) && !IsBlank(f.address)
    && !IsBlank(f.email) && EmailShaped(f.email)
    && !IsBlank(f.phone) && PhoneDigitsOk(f.phone)
    && |f.password| >= MinPasswordLength && f.password == f.confirmPassword
  }

  /** Checks the listed fields in order, keeping a message for each one that fails. */
  function Collect(f: RegisterForm, fields: seq<Field>): (e: Errors)
    ensures forall k :: k in e <==> k in fields && FieldError(f, k).Some?
    ensures forall k :: k in e ==> Some(e[k]) == FieldError(f, k)
  {
    if fields == [] then map[]
    else
      var rest := Collect(f, fields[..|fields| - 1]);
      var k := fields[|fields| - 1];
      match FieldError(f, k)
      case Some(m) => rest[k := m]
      case None => rest
  }

  /** `validateForm`: every field is checked, so several errors can be reported at once. */
  function ValidateForm(f: RegisterForm): (e: Errors)
    ensures Name in e <==> IsBlank(f.name)
    ensures Address in e <==> IsBlank(f.address)
    ensures Email in e <==> IsBlank(f.email) || !EmailShaped(f.email)
    ensures Phone in e <==> IsBlank(f.phone) || !PhoneDigitsOk(f.phone)
    ensures Password in e <==> |f.password| < MinPasswordLength
    ensures ConfirmPassword in e <==> f.password != f.confirmPassword
  {
    var e := Collect(f, [Name, Email, Phone, Password, ConfirmPassword, Address]);
    assert Name in e <==> FieldError(f, Name).Some?;
    assert Email in e <==> FieldError(f, Email).Some?;
    assert Phone in e <==> FieldError(f, Phone).Some?;
    assert Password in e <==> FieldError(f, Password).Some?;
    assert ConfirmPassword in e <==> FieldError(f, ConfirmPassword).Some?;
    assert Address in e <==> FieldError(f, Address).Some?;
    e
  }

  /** No errors are reported exactly when the whole form is valid. */
  lemma NoErrorsIffValid(f: RegisterForm)
    ensures ValidateForm(f) == map[] <==> FormValid(f)
  {
    var e := ValidateForm(f);
    if FormValid(f) {
      assert e.Keys == {};
    }
  }

  /** `handleChange` on the error map: typing into a field whose message is showing blanks
      that message (the key stays, holding ""); every other message is kept. */
  function ClearOnChange(e: Errors, field: Field): (r: Errors)
    ensures r.Keys == e.Keys
    ensures field in e ==> r[field] == ""
    ensures forall k :: k in e && k != field ==> r[k] == e[k]
  {
    if field in e && e[field] != "" then e[field := ""] else e
  }

  /** Some stored user already has exactly this email. */
  predicate EmailTaken(users: seq<User>, email: string) {
    exists i :: 0 <= i < |users| && users[i].email == email
  }

  /** No two stored users share an email. */
  ghost predicate UniqueEmails(users: seq<User>) {
    forall i, j :: 0 <= i < j < |users| ==> users[i].email != users[j].email
  }

  /** The record a successful registration stores (`now` stands for `Date.now()`). */
  function NewUser(f: RegisterForm, now: int): User {
    User(now, f.name, f.email, f.phone, f.password, f.role, f.address, Some(""), Some(Prefs(true, false)), now)
  }

  /** `handleSubmit`: validation errors first, then the duplicate-email check, and only
      then one new user appended to `users` (`[]` when nothing is stored). */
  function HandleSubmit(st: Store, f: RegisterForm, now: int): (r: (Store, Errors))
    ensures !FormValid(f) ==> r == (st, ValidateForm(f)) && r.1 != map[]
    ensures FormValid(f) && EmailTaken(LoadUsers(st).GetOr([]), f.email)
            ==> r == (st, map[Email := "User with this email already exists"])
    ensures r.1 == map[] <==> FormValid(f) && !EmailTaken(LoadUsers(st).GetOr([]), f.email)
    ensures r.1 == map[] ==>
      && var before := LoadUsers(st).GetOr([]);
         && LoadUsers(r.0).Some? && |LoadUsers(r.0).value| == |before| + 1
         && LoadUsers(r.0).value[..|before|] == before
         && var u := LoadUsers(r.0).value[|before|];
            && u.email == f.email && u.password == f.password && u.role == f.role
            && u.name == f.name && u.phone == f.phone && u.address == f.address && u.id == now
            && u.avatar == Some("") && u.communicationPreferences == Some(Prefs(true, false))
    ensures r.1 != map[] ==> r.0 == st
    ensures SameExcept(st, r.0, UsersKey)
  {
    var errors := ValidateForm(f);
    if errors != map[] then (st, errors)
    else
      var users := LoadUsers(st).GetOr([]);
      if EmailTaken(users, f.email) then (st, map[Email := "User with this email already exists"])
      else (Put(st, UsersKey, UsersDoc(users + [NewUser(f, now)])), map[])
  }

  /** Appending a user whose email is not yet taken keeps emails unique. */
  lemma UniqueAfterAppend(users: seq<User>, after: seq<User>)
    requires UniqueEmails(users)
    requires |after| == |users| + 1 && after[..|users|] == users
    requires !EmailTaken(users, after[|users|].email)
    ensures UniqueEmails(after)
  {
    forall i, j | 0 <= i < j < |after| ensures after[i].email != after[j].email {
      assert after[i] == users[i];
      if j < |users| {
        assert after[j] == users[j];
      }
    }
  }

  /** Registration keeps emails unique. */
  lemma RegisterKeepsEmailsUnique(st: Store, f: RegisterForm, now: int)
    requires UniqueEmails(LoadUsers(st).GetOr([]))
    ensures UniqueEmails(LoadUsers(HandleSubmit(st, f, now).0).GetOr([]))
  {
    var users := LoadUsers(st).GetOr([]);
    var r := HandleSubmit(st, f, now);
    if r.1 == map[] {
      UniqueAfterAppend(users, LoadUsers(r.0).value);
    }
  }
}

=== FILE: seqs.dfy ===
/** Sequence operations that the pages use through `Array.prototype.filter`, `.length` and `.slice`. */
module Seqs {

  /** The elements of `s` that satisfy `p`, in their original order. */
  function Filter<T>(p: T -> bool, s: seq<T>): (r: seq<T>)
    ensures |r| <= |s|
    ensures forall i :: 0 <= i < |r| ==> r[i] in s && p(r[i])
    ensures forall i :: 0 <= i < |s| && p(s[i]) ==> s[i] in r
    ensures |r| == Count(p, s)
  {
    if s == [] then []
    else if p(s[0]) then [s[0]] + Filter(p, s[1..])
    else Filter(p, s[1..])
  }

  /** `r` can be obtained from `s` by deleting elements (order is kept). */
  predicate Subsequence<T(==)>(r: seq<T>, s: seq<T>)
    decreases |s|
  {
    if r == [] then true
    else if s == [] then false
    else if r[0] == s[0] then Subsequence(r[1..], s[1..])
    else Subsequence(r, s[1..])
  }

  lemma {:induction false} FilterIsSubsequence<T>(p: T -> bool, s: seq<T>)
    ensures Subsequence(Filter(p, s), s)
  {
    if s != [] {
      FilterIsSubsequence(p, s[1..]);
      if p(s[0]) {
        assert Filter(p, s)[1..] == Filter(p, s[1..]);
      } else {
        SubsequenceOfTail(Filter(p, s), s);
      }
    }
  }

  lemma {:induction false} SubsequenceOfTail<T>(r: seq<T>, s: seq<T>)
    requires s != [] && Subsequence(r, s[1..])
    ensures Subsequence(r, s)
    decreases |s|, 0
  {
    if r != [] && r[0] == s[0] {
      // r[1..] is a subsequence of r, which is a subsequence of s[1..].
      SubsequenceDropHead(r, s[1..]);
    }
  }

  lemma {:induction false} SubsequenceDropHead<T>(r: seq<T>, s: seq<T>)
    requires r != [] && Subsequence(r, s)
    ensures Subsequence(r[1..], s)
    decreases |s|, 1
  {
    if r[0] == s[0] {
      if r[1..] != [] {
        SubsequenceDropHead(r[1..], s[1..]);
        SubsequenceOfTail(r[1..], s);
      }
    } else {
      SubsequenceDropHead(r, s[1..]);
      if r[1..] != [] {
        SubsequenceOfTail(r[1..], s);
      }
    }
  }

  /** A filter whose predicate holds everywhere returns its input unchanged. */
  lemma {:induction false} FilterAll<T>(p: T -> bool, s: seq<T>)
    requires forall i :: 0 <= i < |s| ==> p(s[i])
    ensures Filter(p, s) == s
  {
    if s != [] {
      FilterAll(p, s[1..]);
    }
  }

  lemma {:induction false} FilterAppend<T>(p: T -> bool, a: seq<T>, b: seq<T>)
    ensures Filter(p, a + b) == Filter(p, a) + Filter(p, b)
  {
    if a != [] {
      assert (a + b)[1..] == a[1..] + b;
      FilterAppend(p, a[1..], b);
    } else {
      assert a + b == b;
    }
  }

  /** The number of elements satisfying `p` (`s.filter(p).length`). */
  function Count<T>(p: T -> bool, s: seq<T>): (n: nat)
    ensures n <= |s|
    ensures n == |s| <==> forall i :: 0 <= i < |s| ==> p(s[i])
    ensures n == 0 <==> forall i :: 0 <= i < |s| ==> !p(s[i])
  {
    if s == [] then 0
    else (if p(s[0]) then 1 else 0) + Count(p, s[1..])
  }

  lemma {:induction false} CountIsFilterLength<T>(p: T -> bool, s: seq<T>)
    ensures Count(p, s) == |Filter(p, s)|
  {
    if s != [] {
      CountIsFilterLength(p, s[1..]);
    }
  }

  lemma {:induction false} CountAppend<T>(p: T -> bool, a: seq<T>, b: seq<T>)
    ensures Count(p, a + b) == Count(p, a) + Count(p, b)
  {
    if a != [] {
      assert (a + b)[1..] == a[1..] + b;
      CountAppend(p, a[1..], b);
    } else {
      assert a + b == b;
    }
  }

  /** If `p` implies `q` element by element, fewer elements satisfy `p`. */
  lemma {:induction false} CountMonotonic<T>(p: T -> bool, q: T -> bool, s: seq<T>)
    requires forall i :: 0 <= i < |s| ==> p(s[i]) ==> q(s[i])
    ensures Count(p, s) <= Count(q, s)
  {
    if s != [] {
      CountMonotonic(p, q, s[1..]);
    }
  }

  /** Counting three mutually exclusive predicates never exceeds the length;
      it reaches the length exactly when every element satisfies one of them. */
  lemma {:induction false} CountDisjoint3<T>(p: T -> bool, q: T -> bool, r: T -> bool, s: seq<T>)
    requires forall x :: !(p(x) && q(x)) && !(p(x) && r(x)) && !(q(x) && r(x))
    ensures Count(p, s) + Count(q, s) + Count(r, s) <= |s|
    ensures Count(p, s) + Count(q, s) + Count(r, s) == |s|
        <==> forall i :: 0 <= i < |s| ==> p(s[i]) || q(s[i]) || r(s[i])
  {
    if s != [] {
      CountDisjoint3(p, q, r, s[1..]);
      assert forall i :: 1 <= i < |s| ==> s[1..][i - 1] == s[i];
    }
  }

  /** The first `n` elements, or all of them when there are fewer (`s.slice(0, n)`). */
  function Take<T>(s: seq<T>, n: nat): (r: seq<T>)
    ensures |r| == if n < |s| then n else |s|
    ensures forall i :: 0 <= i < |r| ==> r[i] == s[i]
  {
    if n < |s| then s[..n] else s
  }
}

=== FILE: tenant_dashboard.dfy ===
/** The tenant's dashboard: request counts by status, progress bars and the recent list. */
module TenantDashboard {
  import opened Wrappers
  import opened Entities
  import opened EntityStore
  import opened Seqs
  import opened Palette
  import Login
  import Profile

  lemma GateNeedsTenantSession(st: Store)
    ensures TenantSignedIn(st) <==> SessionKey in st && st[SessionKey].SessionDoc? && st[SessionKey].session.role == "tenant"
  {
  }

  /** After a successful sign-in the page opens exactly for a user whose stored role is
      "tenant"; a user with any other non-landlord role is routed here but turned away. */
  lemma GateAfterLogin(st: Store, email: string, password: string)
    requires email != "" && password != ""
    requires Login.FindUser(LoadUsers(st).GetOr([]), email, password).Some?
    ensures var users := LoadUsers(st).GetOr([]);
            var i := Login.FindUser(users, email, password).value;
            TenantSignedIn(Login.HandleLogin(st, email, password).0) <==> users[i].role == "tenant"
  {
    var users := LoadUsers(st).GetOr([]);
    var r := Login.HandleLogin(st, email, password);
    var i := Login.FindUser(users, email, password).value;
    assert r.1.SignedIn?;
    var j :| 0 <= j < |users| && Login.Matches(users[j], email, password)
              && (forall m :: 0 <= m < j ==> !Login.Matches(users[m], email, password))
              && LoadSession(r.0) == Some(Login.SessionOf(users[j]));
    assert i == j;
  }

  /** Logging out closes the page. */
  lemma GateAfterLogout(st: Store)
    ensures !TenantSignedIn(Profile.Logout(st))
  {
  }

  /** The requests the page shows (`[]` when nothing is stored). */
  function Requests(st: Store): seq<Request> {
    LoadRequests(st).GetOr([])
  }

  datatype StatusCounts = StatusCounts(pending: nat, inProgress: nat, completed: nat)

  /** The three headline counters. */
  function CountByStatus(requests: seq<Request>): (c: StatusCounts)
    ensures c.pending + c.inProgress + c.completed <= |requests|
    ensures c.pending + c.inProgress + c.completed == |requests|
        <==> forall i :: 0 <= i < |requests| ==> requests[i].status in {"Pending", "In Progress", "Completed"}
  {
    var p := (r: Request) => r.status == "Pending";
    var q := (r: Request) => r.status == "In Progress";
    var d := (r: Request) => r.status == "Completed";
    CountDisjoint3(p, q, d, requests);
    StatusCounts(Count(p, requests), Count(q, requests), Count(d, requests))
  }

  /** No requests, no counts; one more request raises exactly the counter of its status. */
  lemma CountByStatusAppend(requests: seq<Request>, x: Request)
    ensures CountByStatus([]) == StatusCounts(0, 0, 0)
    ensures var (c, c') := (CountByStatus(requests), CountByStatus(requests + [x]));
      && c'.pending == c.pending + (if x.status == "Pending" then 1 else 0)
      && c'.inProgress == c.inProgress + (if x.status == "In Progress" then 1 else 0)
      && c'.completed == c.completed + (if x.status == "Completed" then 1 else 0)
  {
    CountAppend((r: Request) => r.status == "Pending", requests, [x]);
    CountAppend((r: Request) => r.status == "In Progress", requests, [x]);
    CountAppend((r: Request) => r.status == "Completed", requests, [x]);
  }

  /** `getStatusProgress`: the width of a request's progress bar, in percent. */
  function StatusProgress(status: string): (pct: int)
    ensures 0 <= pct <= 100
    ensures pct == 0 <==> status !in {"Pending", "In Progress", "Completed"}
    ensures pct == 100 <==> status == "Completed"
    ensures pct == 33 <==> status == "Pending"
    ensures pct == 66 <==> status == "In Progress"
  {
    match status
    case "Pending" => 33
    case "In Progress" => 66
    case "Completed" => 100
    case _ => 0
  }

  /** Progress strictly increases along the lifecycle Pending, In Progress, Completed,
      and an unknown status shows less than any of them. */
  lemma ProgressFollowsLifecycle(unknown: string)
    requires unknown !in {"Pending", "In Progress", "Completed"}
    ensures StatusProgress(unknown) < StatusProgress("Pending") < StatusProgress("In Progress") < StatusProgress("Completed")
  {
  }

  /** The recent list: the first three requests, or all when fewer. */
  function RecentRequests(requests: seq<Request>): (r: seq<Request>)
    ensures |r| == if |requests| < 3 then |requests| else 3
    ensures r == requests[..|r|]
  {
    Take(requests, 3)
  }

  /** The "+N more requests" line: shown exactly when there are more than three, with
      N the number not in the recent list. */
  function MoreRequests(requests: seq<Request>): (more: Option<nat>)
    ensures more.Some? <==> |requests| > 3
    ensures more.Some? ==> |RecentRequests(requests)| + more.value == |requests|
  {
    if |requests| > 3 then Some(|requests| - 3) else None
  }

  /** The badge and bar colour of a recent request: yellow when pending, blue in progress,
      green for anything else. */
  function BadgeColour(status: string): (c: Colour)
    ensures c == Yellow <==> status == "Pending"
    ensures c == Blue <==> status == "In Progress"
    ensures c == Green <==> status != "Pending" && status != "In Progress"
  {
    if status == "Pending" then Yellow else if status == "In Progress" then Blue else Green
  }

  /** A request with an unrecognised status is drawn in the completed colour while its bar
      is empty. */
  lemma UnknownStatusLooksCompleted(unknown: string)
    requires unknown !in {"Pending", "In Progress", "Completed"}
    ensures BadgeColour(unknown) == BadgeColour("Completed")
    ensures StatusProgress(unknown) == 0 < StatusProgress("Completed")
  {
  }
}

=== FILE: text.dfy ===
/** String helpers standing in for the JavaScript built-ins the pages call:
    `trim`, `toLowerCase`, `includes`, `padStart` and number-to-string conversion. */
module Text {

  /** ECMAScript WhiteSpace and LineTerminator code points: what `trim()` strips and `\s` matches. */
  predicate IsSpace(c: char) {
    || c == '\t' || c == '\n' || c == '\U{000B}' || c == '\U{000C}' || c == '\r' || c == ' '
    || c == '\U{00A0}' || c == '\U{1680}' || ('\U{2000}' <= c <= '\U{200A}')
    || c == '\U{2028}' || c == '\U{2029}' || c == '\U{202F}' || c == '\U{205F}'
    || c == '\U{3000}' || c == '\U{FEFF}'
  }

  /** `s` with leading whitespace removed. */
  function TrimStart(s: string): (r: string)
    ensures |r| <= |s| && r == s[|s| - |r|..]
    ensures forall i :: 0 <= i < |s| - |r| ==> IsSpace(s[i])
    ensures r == [] || !IsSpace(r[0])
    ensures r == [] <==> forall i :: 0 <= i < |s| ==> IsSpace(s[i])
  {
    if s != [] && IsSpace(s[0]) then TrimStart(s[1..]) else s
  }

  /** `s` with trailing whitespace removed. */
  function TrimEnd(s: string): (r: string)
    ensures |r| <= |s| && r == s[..|r|]
    ensures forall i :: |r| <= i < |s| ==> IsSpace(s[i])
    ensures r == [] || !IsSpace(r[|r| - 1])
  {
    if s != [] && IsSpace(s[|s| - 1]) then TrimEnd(s[..|s| - 1]) else s
  }

  /** JavaScript's `s.trim()`. */
  function Trim(s: string): string {
    TrimEnd(TrimStart(s))
  }

  /** `!s.trim()`: every character is whitespace, so nothing is left once trimmed. */
  predicate IsBlank(s: string) {
    s == [] || (IsSpace(s[0]) && IsBlank(s[1..]))
  }

  /** A string is blank exactly when trimming it leaves nothing. */
  lemma {:induction false} BlankIffTrimEmpty(s: string)
    ensures IsBlank(s) <==> Trim(s) == ""
    ensures IsBlank(s) <==> forall i :: 0 <= i < |s| ==> IsSpace(s[i])
  {
    if s != [] {
      BlankIffTrimEmpty(s[1..]);
      assert forall i :: 1 <= i < |s| ==> s[i] == s[1..][i - 1];
    }
  }

  /** Upper-case ASCII letters mapped to lower case; every other character kept. */
  function LowerChar(c: char): char {
    if 'A' <= c <= 'Z' then (c as int + 32) as char else c
  }

  /** `s.toLowerCase()` restricted to ASCII letters. */
  function Lower(s: string): (r: string)
    ensures |r| == |s|
  {
    seq(|s|, i requires 0 <= i < |s| => LowerChar(s[i]))
  }

  /** `needle` occurs in `hay` at position `i`. */
  ghost predicate OccursAt(hay: string, needle: string, i: int) {
    0 <= i && i + |needle| <= |hay| && hay[i..i + |needle|] == needle
  }

  predicate StartsWith(s: string, prefix: string) {
    |prefix| <= |s| && s[..|prefix|] == prefix
  }

  /** JavaScript's `hay.includes(needle)`: a left-to-right scan for an occurrence. */
  function Includes(hay: string, needle: string): (b: bool)
    ensures b <==> exists i :: OccursAt(hay, needle, i)
    decreases |hay|
  {
    if StartsWith(hay, needle) then
      assert OccursAt(hay, needle, 0);
      true
    else if hay == [] then
      assert forall i :: !OccursAt(hay, needle, i);
      false
    else
      var rest := Includes(hay[1..], needle);
      assert forall i :: 1 <= i ==> (OccursAt(hay, needle, i) <==> OccursAt(hay[1..], needle, i - 1));
      assert rest ==> OccursAt(hay, needle, 1 + var j :| OccursAt(hay[1..], needle, j); j);
      rest
  }

  /** The decimal digit character for `d`. */
  function DigitChar(d: nat): (c: char)
    requires d < 10
    ensures '0' <= c <= '9'
  {
    ('0' as int + d) as char
  }

  predicate AllDigits(s: string) {
    forall i :: 0 <= i < |s| ==> '0' <= s[i] <= '9'
  }

  /** The number whose decimal digits are `s` (most significant first). */
  function DigitsValue(s: string): nat
    requires AllDigits(s)
  {
    if s == [] then 0
    else DigitsValue(s[..|s| - 1]) * 10 + (s[|s| - 1] as int - '0' as int)
  }

  /** JavaScript's `String(n)` for a non-negative integer: decimal, no leading zeros. */
  function NatToString(n: nat): (s: string)
    ensures |s| >= 1 && AllDigits(s)
    ensures |s| > 1 ==> s[0] != '0'
  {
    if n < 10 then [DigitChar(n)] else NatToString(n / 10) + [DigitChar(n % 10)]
  }

  /** Reading the rendered digits back gives the number. */
  lemma {:induction false} NatToStringRoundTrip(n: nat)
    ensures DigitsValue(NatToString(n)) == n
  {
    if n >= 10 {
      var s := NatToString(n);
      assert s[..|s| - 1] == NatToString(n / 10);
      NatToStringRoundTrip(n / 10);
    }
  }

  /** JavaScript's `String(i)` for an integer: a minus sign before the digits of a negative value. */
  function IntToString(i: int): (s: string)
    ensures i < 0 <==> (|s| > 0 && s[0] == '-')
  {
    if i < 0 then "-" + NatToString(-i) else NatToString(i)
  }

  /** Text of the form `IntToString` produces: digits, optionally after a minus sign. */
  predicate IsIntText(s: string) {
    |s| >= 1 && (s[0] == '-' ==> AllDigits(s[1..])) && (s[0] != '-' ==> AllDigits(s))
  }

  /** Reads back what `IntToString` renders. */
  function ParseInt(s: string): int
    requires IsIntText(s)
  {
    if s[0] == '-' then -(DigitsValue(s[1..]) as int) else DigitsValue(s)
  }

  lemma IntToStringRoundTrip(i: int)
    ensures IsIntText(IntToString(i)) && ParseInt(IntToString(i)) == i
  {
    if i < 0 {
      NatToStringRoundTrip(-i);
      assert IntToString(i)[1..] == NatToString(-i);
    } else {
      NatToStringRoundTrip(i);
    }
  }

  /** JavaScript's `s.padStart(2, "0")`. */
  function PadStart2(s: string): (r: string)
    ensures |r| == if |s| < 2 then 2 else |s|
    ensures r[|r| - |s|..] == s
    ensures forall i :: 0 <= i < |r| - |s| ==> r[i] == '0'
  {
    if |s| == 0 then "00" else if |s| == 1 then "0" + s else s
  }
}

=== FILE: wrappers.dfy ===
/** Optional values: a JavaScript `null` / `undefined` on one side, a present value on the other. */
module Wrappers {

  datatype Option<+T> = None | Some(value: T) {

    /** The value, or `default` when absent (JavaScript's `x ?? default`). */
    function GetOr(default: T): T {
      match this
      case Some(v) => v
      case None => default
    }
  }
}
